=== FILE: README.md ===
# TradingBot decision core in Dafny

This project models the decision core of TradingBot, a small command-line stock-trading bot.

A run works as follows:

1. A trade gate (`IConstraint`) is asked first whether trading is allowed now:
   - the default gate allows trading on weekdays, 09:30-16:00 US Eastern time, at most once per local day;
   - the permissive gate always allows it.
2. The pipeline then fetches the account balance, the daily history and a real-time quote through a platform port (`IPlatform`). It stops at the first fetch that fails, with that fetch's fixed message.
3. It detects a Buy/Sell/Hold signal with the configured strategy: trend following, mean reversion or breakout.
4. It sizes an order: a stop-loss price, a risk-budget quantity, and a clamp by the maximum position value.
5. Unless the signal is Hold, it places the order. A successful placement records the trade in the default gate's shared record.

The in-memory mock platform, with its default data, is modelled too. Whole runs are proved against it.

Modules, one per file:

- `Wrappers`: `Option` and `Attempt`. `Attempt` holds a value or a thrown exception's message.
- `Models`: the records `StrategyConfig`, `QuoteData`, `DailyData`, `Order`, `Result` and `Config`, and the enumeration `TrendSignal`.
- `Series`: the LINQ operations the detectors use (`TakeLast`, `Max`, `Min`, `Average`) and the C# `(int)` conversion.
- `Signals`: strategy dispatch and the three detectors.
- `Sizing`: `CalculateOrder`.
- `Constraints`: the two gates, the shared trade record and the clock inputs.
- `Format`: decimal and `F2` printing for the confirmation message.
- `Platform`: the port, as a record of total functions, and the calls made through it.
- `MockPlatform`: the in-memory platform.
- `TradingProgram`: `Run` and `ExecuteTradePipeline`.
- `Scenarios`: whole runs with the mock's default data and the command line's fixed parameters.

Modelling choices:

- **Prices, balances, volumes and fractions** are exact reals.
- **Exceptions** the program does not catch end a run as `Faulted` with the exception's message. These are an unknown strategy name, and LINQ's `Max`/`Min`/`Average` on an empty window.
- **The port is a parameter.** A run returns its outcome, the list of port calls it made in order, and the trade record afterwards. "No fetch was made" and "no order was placed" can then be stated directly.
- **The clock is an input.** It gives the Eastern day of the week, the Eastern time of day in 100 ns ticks, and the local date.
- **The last-trade record** is passed in and returned. In the source it is a static field.

Behaviour of the code a reader might not expect:

- **Detection errors:** an unknown strategy name, or an empty detection window (a lookback or moving-average period of 0 or less), throws an exception that ends the program. It is not reported as a message.
- **Short histories:** the history is not checked to hold at least a window's worth of bars. `TakeLast` returns what there is.
- **The fetched window** is always requested with the lookback length, also for mean reversion, which averages its own period over what was fetched.
- **The `(int)` cast** truncates toward zero. It is not a floor.
- **Configured fractions** may have any sign; nothing in the code restricts them.

## Model

| member | source | states |
|---|---|---|
| Models.StrategyConfigWithDefaults | TradingBot/Models.cs:16 | a strategy configured without a moving-average period gets period 5, with the given name and lookback |
| Series.TakeLast | TradingBot/TradingBot.cs:62 | the window is the suffix of the history of length min(k, n), in the original order, and is empty for k <= 0 |
| Series.Max | TradingBot/TradingBot.cs:62 | the recent high bounds every element and is one of them |
| Series.Min | TradingBot/TradingBot.cs:63 | the recent low is at most every element and is one of them |
| Series.AverageWithin | TradingBot/TradingBot.cs:71 | LINQ's `Average`, used here and for the volumes at line 81, lies between any lower and upper bound of the averaged values |
| Series.AverageBetweenExtremes | TradingBot/TradingBot.cs:81 | the mean of a non-empty sequence lies between its smallest and its largest element |
| Series.TruncateToInt | TradingBot/TradingBot.cs:99 | the `(int)` cast truncates toward zero: the result is within one of the value, on the zero side |
| Series.TruncateMonotone | TradingBot/TradingBot.cs:104 | the `(int)` cast is monotone |
| Signals.Resolve | TradingBot/TradingBot.cs:50-56 | exactly the three known names resolve; any other name throws "Strategy <name> not supported."; mean reversion reads its moving-average period and the others read the lookback |
| Signals.DetectTrendFollowing | TradingBot/TradingBot.cs:60-66 | Buy exactly when the quote is strictly above every high of the window; Sell exactly when it is not and is strictly below every low; otherwise Hold |
| Signals.DetectMeanReversion | TradingBot/TradingBot.cs:69-74 | Buy exactly when the quote is below the moving average of the closes, Sell exactly when it is above, Hold on equality |
| Signals.DetectBreakout | TradingBot/TradingBot.cs:77-86 | on a day whose latest volume exceeds 1.5 times the window's mean volume the verdict is the trend-following one over the same window; otherwise Hold |
| Signals.DetectSignal | TradingBot/TradingBot.cs:48-57 | an unknown name throws the not-supported message; a known name yields a signal exactly when the history and the window are non-empty, and otherwise throws the empty-sequence error; the signal is the chosen strategy's verdict |
| Signals.LatestBarInWindow | TradingBot/TradingBot.cs:82 | with a positive window the latest bar of the history is the last bar of the window |
| Signals.RecentLowAtMostHigh | TradingBot/TradingBot.cs:62-63 | on bars whose low is at most their high, the recent low is at most the recent high |
| Signals.TrendFollowingTiesHold | TradingBot/TradingBot.cs:64-65 | on bars whose low is at most their high, a quote equal to the recent high or the recent low gives Hold |
| Signals.MeanReversionAgainstCloses | TradingBot/TradingBot.cs:71-73 | a mean-reversion Buy implies some close of the window is above the quote; a Sell implies some close is below it |
| Sizing.StopDistance | TradingBot/TradingBot.cs:95-99 | for either side the stop lies entry times the stop-loss fraction away from the entry, so the divisor is non-zero when both are |
| Sizing.CalculateOrder | TradingBot/TradingBot.cs:89-107 | Hold gives the all-zero order; otherwise the order keeps the signal, enters at the quote, and puts the stop at entry*(1-s) for Buy and entry*(1+s) for Sell |
| Sizing.ClampArithmetic | TradingBot/TradingBot.cs:102-104 | the clamp never raises the quantity and gives the smaller of the risk and cap quantities; with a non-negative cap value the position's value stays within the cap |
| Sizing.ClampOnceFired | TradingBot/TradingBot.cs:103-104 | if the clamp fires for a quantity it fires, with the same result, for every larger one |
| Sizing.AmountsMonotone | TradingBot/TradingBot.cs:98-102 | the risk amount and the maximum position value grow with the balance for a non-negative fraction |
| Sizing.RiskMonotone | TradingBot/TradingBot.cs:99 | the risk quantity grows with the risk amount |
| Sizing.CapMonotone | TradingBot/TradingBot.cs:104 | the cap quantity grows with the maximum position value |
| Sizing.QuantityIsMinOfBudgetAndCap | TradingBot/TradingBot.cs:99-104 | for a positive entry, the quantity is the smaller of the risk quantity and the cap quantity, whatever the sign of the balance |
| Sizing.QuantityWithinRiskBudget | TradingBot/TradingBot.cs:99-104 | for a positive entry the quantity never exceeds the whole shares the risk amount pays for at the stop distance |
| Sizing.PositionWithinCap | TradingBot/TradingBot.cs:102-104 | for a positive entry and a non-negative maximum position value, quantity times entry never exceeds that value; when the clamp fires the quantity is the cap quantity |
| Sizing.BuySellSameQuantity | TradingBot/TradingBot.cs:95-99 | a Buy and a Sell for the same inputs have the same quantity |
| Sizing.StopOnLosingSide | TradingBot/TradingBot.cs:95-97 | with positive entry and stop-loss fraction, a Buy stop is below the entry and a Sell stop above it |
| Sizing.QuantityNonNegative | TradingBot/TradingBot.cs:98-104 | a non-negative balance and non-negative fractions never give a negative quantity, at an entry of either sign |
| Sizing.QuantityMonotoneInBalance | TradingBot/TradingBot.cs:98-104 | for a positive entry and non-negative risk and cap fractions, more balance never buys fewer shares, whatever the sign of the balances |
| Sizing.QuantityMonotoneInRisk | TradingBot/TradingBot.cs:98-104 | for a positive entry and a non-negative balance, a larger risk fraction never buys fewer shares, and once the clamp fires it changes nothing; the fractions may have any sign |
| Constraints.DefaultCanTrade | TradingBot/Constraints/DefaultConstraint.cs:7-22 | allowed exactly on a weekday inside the inclusive hours with no trade recorded today; outside the hours the closed message wins over the limit; inside them with a trade today the limit message; when allowed, "Trade allowed." |
| Constraints.RecordTrade | TradingBot/Constraints/DefaultConstraint.cs:24 | the record afterwards holds the given instant |
| Constraints.AlwaysCanTrade | TradingBot/Constraints/AlwaysTradeConstraint.cs:6-9 | always success, with the message "Trade allowed." |
| Constraints.CanTrade | TradingBot/IPlatform.cs:11-14 | the permissive gate answers success with the allowed message; the default gate answers as the default check does |
| Constraints.MarketHoursBoundaries | TradingBot/Constraints/DefaultConstraint.cs:11-15 | 09:30:00 and 16:00:00 are inside the hours and one tick before the opening or after the closing is outside |
| Constraints.WeekendClosed | TradingBot/Constraints/DefaultConstraint.cs:14-16 | on Saturday and Sunday the gate refuses with the closed message, whatever the time and the record |
| Constraints.AtMostOneTradePerDay | TradingBot/Constraints/DefaultConstraint.cs:18-24 | after recording a trade on a date the gate refuses on that date, with the limit message inside the hours |
| Constraints.NewDayAllowsTrade | TradingBot/Constraints/DefaultConstraint.cs:18-24 | a trade recorded on another date does not stop a trade inside the hours today |
| Format.NatToString | TradingBot/Platforms/MockPlatform.cs:52 | a quantity prints as digits with no leading zero |
| Format.NatToStringRoundTrip | TradingBot/Platforms/MockPlatform.cs:52 | reading the printed digits gives the number back |
| Format.IntToString | TradingBot/Platforms/MockPlatform.cs:52 | a negative quantity prints as '-' followed by digits |
| Format.IntToStringRoundTrip | TradingBot/Platforms/MockPlatform.cs:52 | parsing the printed quantity gives it back |
| Format.RoundHalfUp | TradingBot/Platforms/MockPlatform.cs:52 | the rounded value is the nearest whole number, with halves rounded up |
| Format.Fixed2 | TradingBot/Platforms/MockPlatform.cs:52 | the `F2` text ends in a '.' followed by two digits |
| Format.Fixed2Accurate | TradingBot/Platforms/MockPlatform.cs:52 | the `F2` text is well formed and denotes the printed price to within half a hundredth |
| MockPlatform.Create | TradingBot/Platforms/MockPlatform.cs:14-29 | the platform keeps the given balance and takes the default history and quote when these are omitted |
| MockPlatform.FetchBalance | TradingBot/Platforms/MockPlatform.cs:31-34 | the balance is always present and is the configured one |
| MockPlatform.FetchDailyHistory | TradingBot/Platforms/MockPlatform.cs:36-39 | the answer is always present and is the stored history's suffix of length min(k, n), in order |
| MockPlatform.FetchQuote | TradingBot/Platforms/MockPlatform.cs:41-44 | the stored price relabelled with the requested symbol |
| MockPlatform.PlaceOrder | TradingBot/Platforms/MockPlatform.cs:46-53 | success exactly for a positive quantity, with the confirmation `OrderPlacedMessage` (the interpolated text of line 52); otherwise "Position size too small. No trade placed." |
| MockPlatform.AsPort | TradingBot/Platforms/MockPlatform.cs:8 | the platform seen through the port answers every operation as the mock does |
| MockPlatform.AcceptsPositiveQuantity | TradingBot/Platforms/MockPlatform.cs:48-52 | through the port a positive-quantity order is confirmed |
| MockPlatform.ConfirmationDistinct | TradingBot/Platforms/MockPlatform.cs:49-52 | the confirmation starts with "Order placed: " and is never the refusal message |
| MockPlatform.ConfirmationQuantity | TradingBot/Platforms/MockPlatform.cs:52 | the quantity in the confirmation reads back as the order's quantity |
| MockPlatform.DefaultHistoryShape | TradingBot/Platforms/MockPlatform.cs:20-27 | the five default bars each have low <= close <= high and a positive volume |
| TradingProgram.Decide | TradingBot/TradingBot.cs:35-38 | a detection exception becomes a fault with its message; Hold means nothing to do; a non-Hold signal with a defined sizing becomes the sized order, which is not Hold |
| TradingProgram.Act | TradingBot/TradingBot.cs:37-44 | only a placement makes a fourth call, with the configured account, symbol and token; its outcome is the placement's message, and the record changes, to now, exactly when the placement succeeds |
| TradingProgram.ExecuteTradePipeline | TradingBot/TradingBot.cs:21-45 | calls follow the balance, history, quote, placement protocol; it stops after one call exactly when the balance is missing and after two exactly when the history is missing or empty, with the fixed messages, and after three, with the quote message, when balance and history are there but the quote is missing; a placed order is never Hold; the record changes exactly on a successful placement |
| TradingProgram.Run | TradingBot/TradingBot.cs:10-18 | a refusing gate's message is the outcome, with no port call and the record unchanged; an allowing gate hands over to the pipeline |
| TradingProgram.PlacedOrderIsSized | TradingBot/TradingBot.cs:35-40 | a placed order is the sized order for the non-Hold signal detected on the fetched quote and history with the fetched balance |
| TradingProgram.HoldPlacesNothing | TradingBot/TradingBot.cs:37-38 | on Hold the run ends after the three fetches with "No clear trend: Hold." and the record unchanged |
| TradingProgram.UnknownStrategyNeverTrades | TradingBot/TradingBot.cs:35-55 | an unknown strategy name never places an order nor changes the record, and with all fetches answered ends in the not-supported exception |
| TradingProgram.GateRefusalIgnoresPort | TradingBot/TradingBot.cs:12-16 | under a refusing gate the run makes no call and does not depend on the port or the configuration |
| TradingProgram.AlwaysTradeNeverGated | TradingBot/TradingBot.cs:12-16 | with the permissive gate the run is the pipeline at any clock reading |
| TradingProgram.OneTradePerDay | TradingBot/TradingBot.cs:40-42 | after a run whose order the platform confirms, every default-gated run on the same date stops at the gate with no port call |
| TradingProgram.AlwaysTradeStillRecords | TradingBot/TradingBot.cs:41-42 | under the permissive gate a successful placement is still recorded |
| Scenarios.DefaultWindowIsWhole | TradingBot/Platforms/MockPlatform.cs:20-27 | a five-day window of the default history is the whole history |
| Scenarios.DefaultQuoteAboveAllHighs | TradingBot/Platforms/MockPlatform.cs:20-28 | the default quote 115 is above every default high |
| Scenarios.DefaultSma | TradingBot/Platforms/MockPlatform.cs:20-27 | the mean default close is 102.6 |
| Scenarios.DefaultAverageVolume | TradingBot/Platforms/MockPlatform.cs:20-27 | the mean default volume is 1320 |
| Scenarios.DefaultHighVolume | TradingBot/Platforms/MockPlatform.cs:26 | the last default bar's volume 2000 exceeds 1.5 times the mean |
| Scenarios.DefaultOrder | TradingBot/TradingBot.cs:89-106 | with balance 10000, fractions 1%, 2%, 10% and entry 115 the order is 8 shares with the stop at 112.7 (Buy) or 117.3 (Sell) |
| Scenarios.DefaultFetches | TradingBot/Platforms/MockPlatform.cs:31-44 | the default mock answers the three fetches with its balance, the whole default history and the default quote |
| Scenarios.EntryPriceText | TradingBot/Platforms/MockPlatform.cs:52 | the entry price 115 prints as "115.00" |
| Scenarios.BuyStopText | TradingBot/Platforms/MockPlatform.cs:52 | the Buy stop 112.7 prints as "112.70" |
| Scenarios.SellStopText | TradingBot/Platforms/MockPlatform.cs:52 | the Sell stop 117.3 prints as "117.30" |
| Scenarios.PlacesDefaultOrder | TradingBot/TradingBot.cs:23-44 | on a mock with the default balance and quote and a history the five-day window covers, a non-Hold signal makes four calls, places the 8-share order, prints its confirmation and records the trade |
| Scenarios.TrendFollowingBuys | TradingBot/TradingBot.cs:60-66 | trend following on the default data buys 8 shares at 115 and records the trade |
| Scenarios.BreakoutDetectsBuy | TradingBot/TradingBot.cs:77-86 | on the default data the breakout detector gives Buy |
| Scenarios.BreakoutBuys | TradingBot/TradingBot.cs:77-86 | breakout on the default data buys 8 shares at 115 |
| Scenarios.MeanReversionSells | TradingBot/TradingBot.cs:69-74 | mean reversion on the default data sells 8 shares at 115 with the stop at 117.3 |
| Scenarios.OpenClockAllows | TradingBot/Constraints/DefaultConstraint.cs:14-21 | at noon on a Wednesday with no trade recorded the default gate allows trading |
| Scenarios.DefaultGateFirstRun | TradingBot/Constraints/DefaultConstraint.cs:7-24 | under the default gate the first run of the day places the Buy order and records it |
| Scenarios.DefaultGateSecondRunRefused | TradingBot/Constraints/DefaultConstraint.cs:18-19 | a second run later that day inside the hours ends with "Trade limit reached for today." and no port call |
| Scenarios.SmallBalanceOrder | TradingBot/TradingBot.cs:98-99 | with balance 100 the risk amount 1 buys no share |
| Scenarios.SmallBalanceRefused | TradingBot/Platforms/MockPlatform.cs:48-49 | with balance 100 the zero-share order is refused with the too-small message and nothing is recorded |
| Scenarios.UnknownStrategyFaults | TradingBot/TradingBot.cs:55 | an unknown strategy name ends the run in the not-supported exception after the three fetches |

## Left out

- Floating point: prices are exact reals, so IEEE `double` rounding is not modelled. A quantity near a whole-share boundary can therefore differ from the program's by one.
- Sizing.CalculateOrder: a zero entry price or a zero stop-loss fraction is not modelled. The program divides by zero there, getting an infinity or NaN, and then casts it to `int`, with an unspecified result. The model requires a non-zero divisor, and the pipeline reports such a run as `SizingUndefined`.
- Series.TruncateToInt: the cast does not model the 32-bit `int` range, because quantities are unbounded integers. The same holds for `Order.quantity`.
- Sizing.QuantityIsMinOfBudgetAndCap: stated only for a positive entry price. The same holds for QuantityWithinRiskBudget, PositionWithinCap and the monotonicity lemmas. A negative quote is accepted by the code but not covered by these lemmas.
- Sizing.PositionWithinCap: stated only for a non-negative maximum position value. With a negative balance the quantity can be negative and cost more than the cap, for example balance -100 at entry 3 gives -3 shares worth -9 against a cap of -10.
- Sizing.QuantityMonotoneInBalance: stated only for non-negative risk and cap fractions. With a negative risk fraction, more balance buys fewer shares.
- Sizing.QuantityMonotoneInRisk: stated only for a non-negative balance. With a negative balance, a larger risk fraction buys fewer shares.
- Time zones and the system clock (`TimeZoneInfo`, `DateTime.UtcNow`, `DateTime.Now`, `DateTime.Today`): these are clock inputs. The conversion to Eastern time is not modelled.
- Format.Fixed2: culture-dependent separators are not modelled; the invariant culture is assumed. A negative value that rounds to zero is printed with its '-' in the model.
- `async`/`Task`, `Console.WriteLine` and concurrent access to the static trade record: the printed line is the run's `Printed` outcome, and runs are sequential.
- Program.cs: parsing the command line, looking up tokens and choosing the platform and gate by name. Its fixed parameters appear only as `Scenarios.CommandLineConfig`.
- SchwabPlatform.cs and TradingPlatform.cs: HTTP and JSON clients. Any platform is a `Port` value here.
- The vendor response records of Models.cs (lines 28-38): these are JSON shapes.
- Exceptions a real platform may throw inside a fetch or a placement: the port's operations are total functions.

=== FILE: constraints.dfy ===
/**
 * Trade gates. The default gate allows a trade on a weekday during
 * regular market hours in US Eastern time, at most once per local
 * calendar day; the permissive gate always allows it.
 *
 * The time of the last recorded trade is a single value shared by the
 * whole program (a static field in the source). It is threaded through
 * explicitly here, and every clock reading is an input.
 */
module Constraints {
  import opened Wrappers
  import opened Models

  /** Days of the week with the ordinals of .NET's `DayOfWeek`: Sunday is 0, Saturday is 6. */
  datatype DayOfWeek = Sunday | Monday | Tuesday | Wednesday | Thursday | Friday | Saturday

  function Ordinal(d: DayOfWeek): (n: int)
    ensures 0 <= n <= 6
  {
    match d
    case Sunday => 0
    case Monday => 1
    case Tuesday => 2
    case Wednesday => 3
    case Thursday => 4
    case Friday => 5
    case Saturday => 6
  }

  /** A time of day counts 100-nanosecond ticks since midnight, as `TimeSpan` does. */
  const TicksPerSecond: int := 10_000_000

  function TimeOfDay(hours: int, minutes: int, seconds: int): int
  {
    ((hours * 60 + minutes) * 60 + seconds) * TicksPerSecond
  }

  /** The opening time 09:30:00. */
  const MarketOpen: int := TimeOfDay(9, 30, 0)
  /** The closing time 16:00:00. */
  const MarketClose: int := TimeOfDay(16, 0, 0)

  /** A calendar date; only equality of dates matters to the gate. */
  datatype Date = Date(year: int, month: int, day: int)

  /** A local date and time, as `DateTime.Now` reads it. */
  datatype DateTime = DateTime(date: Date, timeOfDay: int)

  /**
   * What the default gate reads from the clock: the current day of the week
   * and time of day converted to US Eastern time, and the local date.
   */
  datatype Clock = Clock(easternDay: DayOfWeek, easternTimeOfDay: int, today: Date)

  /** The two gates the program can be configured with. */
  datatype Constraint = DefaultConstraint | AlwaysTradeConstraint

  const MarketClosedMessage: string := "Market is closed. Trading not allowed."
  const TradeLimitMessage: string := "Trade limit reached for today."
  const TradeAllowedMessage: string := "Trade allowed."

  /** Monday through Friday. */
  predicate IsWeekday(d: DayOfWeek)
  {
    d in {Monday, Tuesday, Wednesday, Thursday, Friday}
  }

  /** Regular hours, both ends included. */
  predicate WithinMarketHours(timeOfDay: int)
  {
    MarketOpen <= timeOfDay <= MarketClose
  }

  /** True when a trade has been recorded on the local date `today`. */
  predicate TradedOn(lastTrade: Option<DateTime>, today: Date)
  {
    lastTrade.Some? && lastTrade.value.date == today
  }

  /**
   * The default gate: a closed market wins over the daily limit, and a
   * trade is allowed exactly on a weekday within market hours when no
   * trade was recorded today.
   */
  function DefaultCanTrade(lastTrade: Option<DateTime>, clock: Clock): (r: Result)
    ensures r.success <==>
      IsWeekday(clock.easternDay) && WithinMarketHours(clock.easternTimeOfDay) && !TradedOn(lastTrade, clock.today)
    ensures !(IsWeekday(clock.easternDay) && WithinMarketHours(clock.easternTimeOfDay)) ==>
      r.message == MarketClosedMessage
    ensures IsWeekday(clock.easternDay) && WithinMarketHours(clock.easternTimeOfDay) && TradedOn(lastTrade, clock.today) ==>
      r.message == TradeLimitMessage
    ensures r.success ==> r.message == TradeAllowedMessage
  {
    if Ordinal(clock.easternDay) < Ordinal(Monday) || Ordinal(clock.easternDay) > Ordinal(Friday)
       || clock.easternTimeOfDay < MarketOpen || clock.easternTimeOfDay > MarketClose
    then Result(false, MarketClosedMessage)
    else if lastTrade.Some? && lastTrade.value.date == clock.today then Result(false, TradeLimitMessage)
    else Result(true, TradeAllowedMessage)
  }

  /** Records a trade at the given local instant; the previous record is forgotten. */
  function RecordTrade(lastTrade: Option<DateTime>, now: DateTime): (r: Option<DateTime>)
    ensures r.Some? && r.value == now
  {
    Some(now)
  }

  /** The permissive gate ignores the clock and the trade record. */
  function AlwaysCanTrade(): (r: Result)
    ensures r.success && r.message == TradeAllowedMessage
  {
    Result(true, TradeAllowedMessage)
  }

  /** The configured gate. */
  function CanTrade(c: Constraint, lastTrade: Option<DateTime>, clock: Clock): (r: Result)
    ensures c == AlwaysTradeConstraint ==> r == Result(true, TradeAllowedMessage)
    ensures c == DefaultConstraint ==> r == DefaultCanTrade(lastTrade, clock)
  {
    match c
    case DefaultConstraint => DefaultCanTrade(lastTrade, clock)
    case AlwaysTradeConstraint => AlwaysCanTrade()
  }

  /** The opening and the closing instants are inside the hours; one tick outside either is not. */
  lemma MarketHoursBoundaries()
    ensures MarketOpen == 342_000_000_000 && MarketClose == 576_000_000_000
    ensures WithinMarketHours(MarketOpen) && WithinMarketHours(MarketClose)
    ensures !WithinMarketHours(MarketOpen - 1) && !WithinMarketHours(MarketClose + 1)
  {
  }

  /** On Saturday and Sunday the default gate refuses with the market-closed message. */
  lemma WeekendClosed(lastTrade: Option<DateTime>, clock: Clock)
    requires clock.easternDay == Saturday || clock.easternDay == Sunday
    ensures DefaultCanTrade(lastTrade, clock) == Result(false, MarketClosedMessage)
  {
  }

  /** Once a trade is recorded on a date, the default gate refuses for the rest of that date. */
  lemma AtMostOneTradePerDay(lastTrade: Option<DateTime>, now: DateTime, clock: Clock)
    requires now.date == clock.today
    ensures !DefaultCanTrade(RecordTrade(lastTrade, now), clock).success
    ensures IsWeekday(clock.easternDay) && WithinMarketHours(clock.easternTimeOfDay) ==>
      DefaultCanTrade(RecordTrade(lastTrade, now), clock).message == TradeLimitMessage
  {
    assert TradedOn(RecordTrade(lastTrade, now), clock.today);
  }

  /** A trade recorded on another date does not count against today. */
  lemma NewDayAllowsTrade(lastTrade: Option<DateTime>, now: DateTime, clock: Clock)
    requires now.date != clock.today
    requires IsWeekday(clock.easternDay) && WithinMarketHours(clock.easternTimeOfDay)
    ensures DefaultCanTrade(RecordTrade(lastTrade, now), clock) == Result(true, TradeAllowedMessage)
  {
    assert !TradedOn(RecordTrade(lastTrade, now), clock.today);
  }
}

=== FILE: format.dfy ===
/**
 * The number formatting the order confirmation uses: an `int` printed in
 * decimal, and a price printed with the fixed-point format `F2` (two
 * decimals, the exact value rounded half away from zero). The invariant
 * culture's '.' is the decimal separator.
 */
module Format {

  predicate IsDigit(c: char)
  {
    '0' <= c <= '9'
  }

  predicate AllDigits(s: string)
  {
    forall i :: 0 <= i < |s| ==> IsDigit(s[i])
  }

  function DigitChar(d: int): (c: char)
    requires 0 <= d <= 9
    ensures IsDigit(c)
  {
    "0123456789"[d]
  }

  function DigitValue(c: char): (d: int)
    requires IsDigit(c)
    ensures 0 <= d <= 9
  {
    c as int - '0' as int
  }

  lemma DigitValueOfChar(d: int)
    requires 0 <= d <= 9
    ensures DigitValue(DigitChar(d)) == d
  {
    assert "0123456789"[d] as int == '0' as int + d;
  }

  /** The shortest decimal digits of `n`: no leading zero except for 0 itself. */
  function NatToString(n: nat): (s: string)
    ensures |s| >= 1 && AllDigits(s)
    ensures |s| > 1 ==> s[0] != '0'
    decreases n
  {
    if n < 10 then [DigitChar(n)] else NatToString(n / 10) + [DigitChar(n % 10)]
  }

  /** The number a string of digits denotes. */
  function DigitsValue(s: string): nat
    requires AllDigits(s)
  {
    if |s| == 0 then 0 else DigitsValue(s[..|s| - 1]) * 10 + DigitValue(s[|s| - 1])
  }

  /** Reading the printed digits back gives the number. */
  lemma {:induction false} NatToStringRoundTrip(n: nat)
    ensures DigitsValue(NatToString(n)) == n
    decreases n
  {
    var s := NatToString(n);
    if n < 10 {
      DigitValueOfChar(n);
    } else {
      NatToStringRoundTrip(n / 10);
      DigitValueOfChar(n % 10);
      assert s[..|s| - 1] == NatToString(n / 10);
    }
  }

  /** An `int` as string interpolation prints it: a leading '-' for negative values. */
  function IntToString(i: int): (s: string)
    ensures i >= 0 ==> AllDigits(s)
    ensures i < 0 ==> |s| >= 2 && s[0] == '-' && AllDigits(s[1..])
  {
    if i < 0 then "-" + NatToString(-i) else NatToString(i)
  }

  /** The inverse of `IntToString`, for strings of its shape. */
  function ParseInt(s: string): int
    requires AllDigits(s) || (|s| >= 1 && s[0] == '-' && AllDigits(s[1..]))
  {
    if |s| >= 1 && s[0] == '-' then -(DigitsValue(s[1..]) as int) else DigitsValue(s)
  }

  /** A digit string parses as its value. */
  lemma ParseDigits(t: string)
    requires |t| >= 1 && AllDigits(t)
    ensures ParseInt(t) == DigitsValue(t)
  {
    assert IsDigit(t[0]);
  }

  /** A minus sign before a digit string negates its value. */
  lemma ParseNegative(t: string)
    requires AllDigits(t)
    ensures ParseInt("-" + t) == -(DigitsValue(t) as int)
  {
    assert ("-" + t)[1..] == t;
  }

  lemma IntToStringRoundTrip(i: int)
    ensures ParseInt(IntToString(i)) == i
  {
    if i < 0 {
      NegativeRoundTrip(i);
    } else {
      NonNegativeRoundTrip(i);
    }
  }

  lemma NegativeRoundTrip(i: int)
    requires i < 0
    ensures ParseInt(IntToString(i)) == i
  {
    var n: nat := -i;
    var t := NatToString(n);
    NatToStringRoundTrip(n);
    ParseNegative(t);
    assert ParseInt("-" + t) == i;
    assert IntToString(i) == "-" + t;
  }

  lemma NonNegativeRoundTrip(i: int)
    requires i >= 0
    ensures ParseInt(IntToString(i)) == i
  {
    var t := NatToString(i);
    assert IntToString(i) == t;
    NatToStringRoundTrip(i);
    ParseDigits(t);
  }

  /** The nearest whole number to a non-negative real, halves rounded up. */
  function RoundHalfUp(a: real): (n: nat)
    requires a >= 0.0
    ensures n as real - 0.5 <= a < n as real + 0.5
  {
    (a + 0.5).Floor
  }

  /** The magnitude in hundredths, rounded half away from zero. */
  function Hundredths(x: real): nat
  {
    RoundHalfUp(if x < 0.0 then -x * 100.0 else x * 100.0)
  }

  /**
   * The `F2` format: the whole part, a '.', and exactly two decimals.
   * Every negative value prints with a leading '-'.
   */
  function Fixed2(x: real): (s: string)
    ensures |s| >= 4 && s[|s| - 3] == '.' && IsDigit(s[|s| - 2]) && IsDigit(s[|s| - 1])
  {
    var c := Hundredths(x);
    var frac := c % 100;
    (if x < 0.0 then "-" else "") + NatToString(c / 100) + "." + [DigitChar(frac / 10), DigitChar(frac % 10)]
  }

  /** The value an `F2` string denotes. */
  function ParseFixed2(s: string): real
    requires |s| >= 4 && s[|s| - 3] == '.' && IsDigit(s[|s| - 2]) && IsDigit(s[|s| - 1])
    requires AllDigits(s[..|s| - 3]) || (s[0] == '-' && AllDigits(s[1..|s| - 3]))
  {
    var whole := if s[0] == '-' then DigitsValue(s[1..|s| - 3]) else DigitsValue(s[..|s| - 3]);
    var magnitude := whole as real + (DigitValue(s[|s| - 2]) * 10 + DigitValue(s[|s| - 1])) as real / 100.0;
    if s[0] == '-' then -magnitude else magnitude
  }

  /** The `F2` shape built from a sign, whole digits and two decimals parses back to its parts. */
  lemma ParseFixed2Parts(negative: bool, w: string, frac: int)
    requires |w| >= 1 && AllDigits(w) && 0 <= frac < 100
    ensures var s := (if negative then "-" else "") + w + "." + [DigitChar(frac / 10), DigitChar(frac % 10)];
      && |s| >= 4 && s[|s| - 3] == '.' && IsDigit(s[|s| - 2]) && IsDigit(s[|s| - 1])
      && (AllDigits(s[..|s| - 3]) || (s[0] == '-' && AllDigits(s[1..|s| - 3])))
      && ParseFixed2(s) == var m := DigitsValue(w) as real + frac as real / 100.0; if negative then -m else m
  {
    var s := (if negative then "-" else "") + w + "." + [DigitChar(frac / 10), DigitChar(frac % 10)];
    assert s[|s| - 2] == DigitChar(frac / 10) && s[|s| - 1] == DigitChar(frac % 10);
    DigitValueOfChar(frac / 10);
    DigitValueOfChar(frac % 10);
    assert frac / 10 * 10 + frac % 10 == frac;
    if negative {
      assert s[0] == '-';
      assert s[1..|s| - 3] == w;
    } else {
      assert s[..|s| - 3] == w;
      assert IsDigit(w[0]) && s[0] == w[0];
    }
  }

  /** Hundredths rounded half away from zero, with the sign put back, are within half a hundredth. */
  lemma HundredthsAccurate(x: real)
    ensures var c := Hundredths(x);
      var m := (c / 100) as real + (c % 100) as real / 100.0;
      x - 0.005 <= (if x < 0.0 then -m else m) <= x + 0.005
  {
    var c := Hundredths(x);
    assert (c / 100) * 100 + c % 100 == c;
    assert (c / 100) as real + (c % 100) as real / 100.0 == c as real / 100.0;
  }

  /** Reading an `F2` string back gives the value to within half a hundredth. */
  lemma Fixed2Accurate(x: real)
    ensures var s := Fixed2(x);
      && |s| >= 4 && s[|s| - 3] == '.' && IsDigit(s[|s| - 2]) && IsDigit(s[|s| - 1])
      && (AllDigits(s[..|s| - 3]) || (s[0] == '-' && AllDigits(s[1..|s| - 3])))
      && x - 0.005 <= ParseFixed2(s) <= x + 0.005
  {
    var c := Hundredths(x);
    var w := NatToString(c / 100);
    NatToStringRoundTrip(c / 100);
    ParseFixed2Parts(x < 0.0, w, c % 100);
    HundredthsAccurate(x);
  }
}

=== FILE: mockplatform.dfy ===
/**
 * The in-memory platform: a fixed balance, a fixed daily history and a
 * fixed quote, each replaceable when the platform is built. Every fetch
 * succeeds; an order is accepted exactly when its quantity is positive.
 */
module MockPlatform {
  import opened Wrappers
  import opened Models
  import opened Series
  import opened Format
  import opened Platform

  datatype MockPlatform = MockPlatform(balance: real, history: seq<DailyData>, quote: QuoteData)

  const DefaultBalance: real := 10000.0

  /** Five daily bars, oldest first; the last has the highest volume. */
  const DefaultHistory: seq<DailyData> := [
    DailyData("2025-05-24", 100.0, 90.0, 95.0, 1000.0),
    DailyData("2025-05-25", 105.0, 95.0, 100.0, 1200.0),
    DailyData("2025-05-26", 110.0, 100.0, 105.0, 1100.0),
    DailyData("2025-05-27", 108.0, 98.0, 103.0, 1300.0),
    DailyData("2025-05-28", 112.0, 102.0, 110.0, 2000.0)
  ]

  const DefaultQuote: QuoteData := QuoteData("AAPL", 115.0)

  const PositionTooSmallMessage: string := "Position size too small. No trade placed."

  /** Builds the platform; an omitted history or quote takes the default. */
  function Create(balance: real, history: Option<seq<DailyData>>, quote: Option<QuoteData>): (m: MockPlatform)
    ensures m.balance == balance
    ensures m.history == if history.Some? then history.value else DefaultHistory
    ensures m.quote == if quote.Some? then quote.value else DefaultQuote
  {
    MockPlatform(balance,
                 match history case Some(h) => h case None => DefaultHistory,
                 match quote case Some(q) => q case None => DefaultQuote)
  }

  function FetchBalance(m: MockPlatform, accountId: string, token: string): (r: Option<real>)
    ensures r == Some(m.balance)
  {
    Some(m.balance)
  }

  /** The most recent `lookbackDays` bars, oldest first; none for a non-positive count. */
  function FetchDailyHistory(m: MockPlatform, symbol: string, lookbackDays: int, token: string): (r: Option<seq<DailyData>>)
    ensures r.Some?
    ensures |r.value| == if lookbackDays <= 0 then 0 else if lookbackDays < |m.history| then lookbackDays else |m.history|
    ensures m.history == m.history[..|m.history| - |r.value|] + r.value
  {
    Some(TakeLast(m.history, lookbackDays))
  }

  /** The stored quote, relabelled with the requested symbol. */
  function FetchQuote(m: MockPlatform, symbol: string, token: string): (r: Option<QuoteData>)
    ensures r.Some? && r.value.symbol == symbol && r.value.last == m.quote.last
  {
    Some(m.quote.(symbol := symbol))
  }

  /** The confirmation of a placed order. */
  function OrderPlacedMessage(symbol: string, order: Order): string
  {
    "Order placed: " + SignalName(order.signal) + " " + IntToString(order.quantity)
      + (" shares of " + symbol + " at $" + Fixed2(order.entryPrice) + " with stop-loss at $" + Fixed2(order.stopLossPrice))
  }

  /** Accepts exactly the orders with a positive quantity. */
  function PlaceOrder(m: MockPlatform, accountId: string, symbol: string, order: Order, token: string): (r: Result)
    ensures r.success <==> order.quantity > 0
    ensures !r.success ==> r.message == PositionTooSmallMessage
    ensures r.success ==> r.message == OrderPlacedMessage(symbol, order)
  {
    if order.quantity <= 0 then Result(false, PositionTooSmallMessage)
    else Result(true, OrderPlacedMessage(symbol, order))
  }

  /** The platform as a port. */
  function AsPort(m: MockPlatform): (p: Port)
    ensures forall symbol, token :: p.fetchQuote(symbol, token) == FetchQuote(m, symbol, token)
    ensures forall symbol, k, token :: p.fetchDailyHistory(symbol, k, token) == FetchDailyHistory(m, symbol, k, token)
    ensures forall accountId, token :: p.fetchBalance(accountId, token) == FetchBalance(m, accountId, token)
    ensures forall accountId, symbol, order, token ::
      p.placeOrder(accountId, symbol, order, token) == PlaceOrder(m, accountId, symbol, order, token)
  {
    Port((symbol, token) => FetchQuote(m, symbol, token),
         (symbol, k, token) => FetchDailyHistory(m, symbol, k, token),
         (accountId, token) => FetchBalance(m, accountId, token),
         (accountId, symbol, order, token) => PlaceOrder(m, accountId, symbol, order, token))
  }

  /** Through the port, an order with a positive quantity is confirmed. */
  lemma AcceptsPositiveQuantity(m: MockPlatform, accountId: string, symbol: string, order: Order, token: string)
    requires order.quantity > 0
    ensures AsPort(m).placeOrder(accountId, symbol, order, token) == Result(true, OrderPlacedMessage(symbol, order))
  {
  }

  /** Slicing a concatenation below the length of its left part only sees the left part. */
  lemma PrefixKept(x: string, y: string, n: nat)
    requires n <= |x|
    ensures (x + y)[..n] == x[..n]
  {
  }

  /** The middle part of a three-part concatenation, cut back out. */
  lemma MiddleKept(x: string, y: string, z: string)
    ensures (x + y + z)[|x|..|x| + |y|] == y
  {
  }

  /** The confirmation is never the refusal, and it names the order's side, quantity and symbol. */
  lemma ConfirmationDistinct(symbol: string, order: Order)
    ensures OrderPlacedMessage(symbol, order) != PositionTooSmallMessage
    ensures OrderPlacedMessage(symbol, order)[..14] == "Order placed: "
  {
    var head := "Order placed: " + SignalName(order.signal);
    var prefix := head + " ";
    var digits := IntToString(order.quantity);
    var rest := " shares of " + symbol + " at $" + Fixed2(order.entryPrice) + " with stop-loss at $" + Fixed2(order.stopLossPrice);
    var msg := OrderPlacedMessage(symbol, order);
    assert msg == prefix + digits + rest;
    PrefixKept(prefix + digits, rest, 14);
    PrefixKept(prefix, digits, 14);
    PrefixKept(head, " ", 14);
    PrefixKept("Order placed: ", SignalName(order.signal), 14);
    assert msg[..14] == "Order placed: ";
    assert msg[0] == msg[..14][0] == 'O' && PositionTooSmallMessage[0] == 'P';
  }

  /** The quantity in a confirmation reads back as the order's quantity. */
  lemma ConfirmationQuantity(symbol: string, order: Order)
    ensures var prefix := "Order placed: " + SignalName(order.signal) + " ";
      var digits := IntToString(order.quantity);
      && OrderPlacedMessage(symbol, order)[|prefix|..|prefix| + |digits|] == digits
      && ParseInt(digits) == order.quantity
  {
    var prefix := "Order placed: " + SignalName(order.signal) + " ";
    var digits := IntToString(order.quantity);
    var rest := " shares of " + symbol + " at $" + Fixed2(order.entryPrice) + " with stop-loss at $" + Fixed2(order.stopLossPrice);
    assert OrderPlacedMessage(symbol, order) == prefix + digits + rest;
    MiddleKept(prefix, digits, rest);
    IntToStringRoundTrip(order.quantity);
  }

  /** Every bar of the default history has its low below its high and a positive volume. */
  lemma DefaultHistoryShape()
    ensures |DefaultHistory| == 5
    ensures forall i :: 0 <= i < |DefaultHistory| ==>
      DefaultHistory[i].low <= DefaultHistory[i].close <= DefaultHistory[i].high && DefaultHistory[i].volume > 0.0
  {
  }
}

=== FILE: models.dfy ===
/**
 * The records and the signal enumeration of the trading bot.
 * Prices, balances, volumes and fractions are exact reals; the source's
 * `double` rounding is not modelled.
 */
module Models {

  /** The three directional verdicts; Hold is also the "do nothing" outcome. */
  datatype TrendSignal = Buy | Sell | Hold

  /** The enum member's name, as string interpolation prints it. */
  function SignalName(s: TrendSignal): string
  {
    match s
    case Buy => "Buy"
    case Sell => "Sell"
    case Hold => "Hold"
  }

  /** The moving-average period used when a configuration omits it. */
  const DefaultSmaPeriod: int := 5

  /** A strategy as configured: its name is dispatched on at detection time. */
  datatype StrategyConfig = StrategyConfig(name: string, lookbackDays: int, smaPeriod: int)

  /** Builds a strategy configuration with the moving-average period left out. */
  function StrategyConfigWithDefaults(name: string, lookbackDays: int): (c: StrategyConfig)
    ensures c.name == name && c.lookbackDays == lookbackDays
    ensures c.smaPeriod == 5
  {
    StrategyConfig(name, lookbackDays, DefaultSmaPeriod)
  }

  /** A point-in-time quote. */
  datatype QuoteData = QuoteData(symbol: string, last: real)

  /** One daily bar; histories are ordered oldest first. */
  datatype DailyData = DailyData(date: string, high: real, low: real, close: real, volume: real)

  /** A sized order; quantity is the source's 32-bit `int`, kept unbounded here. */
  datatype Order = Order(signal: TrendSignal, quantity: int, entryPrice: real, stopLossPrice: real)

  /** The outcome channel of gates and order placement. */
  datatype Result = Result(success: bool, message: string)

  /** Everything the pipeline is configured with. */
  datatype Config = Config(
    platform: string,
    token: string,
    accountId: string,
    symbol: string,
    riskPerTradePercent: real,
    stopLossPercent: real,
    maxPositionPercent: real,
    strategy: StrategyConfig,
    constraintSet: string)
}

=== FILE: pipeline.dfy ===
/**
 * The entry point and the trade pipeline. The gate is asked first; when
 * it allows trading, the pipeline fetches the balance, the history and
 * the quote, stopping at the first that is missing, detects a signal,
 * sizes an order and, unless the signal is Hold, places it. A successful
 * placement records the trade in the default gate's shared record,
 * whichever gate is configured.
 *
 * A run ends with a printed line, or with an exception the program does
 * not catch (`Faulted`), or in sizing whose divisor is zero, which the
 * source computes in IEEE floating point and the model leaves without a
 * value (`SizingUndefined`).
 */
module TradingProgram {
  import opened Wrappers
  import opened Models
  import opened Signals
  import opened Sizing
  import opened Constraints
  import opened Platform

  const BalanceFailedMessage: string := "Failed to fetch account balance."
  const HistoryFailedMessage: string := "Failed to fetch daily history data."
  const QuoteFailedMessage: string := "Failed to fetch real-time quote."
  const HoldMessage: string := "No clear trend: Hold."

  datatype Outcome =
    | Printed(message: string)
    | Faulted(error: string)
    | SizingUndefined

  /** How a run ended, the port calls it made in order, and the trade record afterwards. */
  datatype RunResult = RunResult(outcome: Outcome, calls: seq<PortCall>, lastTrade: Option<DateTime>)

  function BalanceCall(config: Config): PortCall
  {
    FetchBalanceCall(config.accountId, config.token)
  }

  function HistoryCall(config: Config): PortCall
  {
    FetchDailyHistoryCall(config.symbol, config.strategy.lookbackDays, config.token)
  }

  function QuoteCall(config: Config): PortCall
  {
    FetchQuoteCall(config.symbol, config.token)
  }

  /**
   * The calls follow the pipeline's protocol: balance, history, quote,
   * then at most one placement, each with the configured arguments.
   */
  predicate FollowsProtocol(calls: seq<PortCall>, config: Config)
  {
    && 1 <= |calls| <= 4
    && calls[0] == BalanceCall(config)
    && (|calls| >= 2 ==> calls[1] == HistoryCall(config))
    && (|calls| >= 3 ==> calls[2] == QuoteCall(config))
    && (|calls| == 4 ==> calls[3].PlaceOrderCall? && calls[3].accountId == config.accountId
                         && calls[3].symbol == config.symbol && calls[3].token == config.token)
  }

  /** The port's answer to a recorded placement call. */
  function Answer(port: Port, call: PortCall): Result
    requires call.PlaceOrderCall?
  {
    port.placeOrder(call.accountId, call.symbol, call.order, call.token)
  }

  /** True when the history answer lets the pipeline go on. */
  predicate HistoryUsable(history: Option<seq<DailyData>>)
  {
    history.Some? && |history.value| > 0
  }

  /** What the pipeline does once the three fetches have answered. */
  datatype Decision =
    | Fault(error: string)
    | Undefined
    | Stay
    | Place(order: Order)

  /**
   * Detection and sizing: an exception from detection, no value for a
   * sizing with a zero divisor, nothing to do on Hold, or the sized order.
   */
  function Decide(config: Config, balance: real, history: seq<DailyData>, quote: QuoteData): (d: Decision)
    ensures d.Fault? <==> DetectSignal(config.strategy, quote, history).Thrown?
    ensures d.Fault? ==> d.error == DetectSignal(config.strategy, quote, history).error
    ensures d.Fault? ==> d.error == NotSupportedError(config.strategy.name) || d.error == EmptySequenceError
    ensures d.Stay? <==> DetectSignal(config.strategy, quote, history) == Ok(Hold)
    ensures d.Place? <==>
      && DetectSignal(config.strategy, quote, history).Ok?
      && DetectSignal(config.strategy, quote, history).value != Hold
      && SizingDefined(quote.last, config.stopLossPercent)
    ensures d.Place? ==>
      && d.order.signal != Hold
      && d.order == CalculateOrder(quote, balance, DetectSignal(config.strategy, quote, history).value, config)
  {
    match DetectSignal(config.strategy, quote, history)
    case Thrown(e) => Fault(e)
    case Ok(signal) =>
      if signal == Hold then Stay
      else if !SizingDefined(quote.last, config.stopLossPercent) then Undefined
      else Place(CalculateOrder(quote, balance, signal, config))
  }

  /** The three fetch calls, in the order the pipeline makes them. */
  function Fetches(config: Config): seq<PortCall>
  {
    [BalanceCall(config), HistoryCall(config), QuoteCall(config)]
  }

  /**
   * Carries out a decision after the three fetches: only `Place` calls the
   * port again, and only a successful placement changes the record.
   */
  function Act(config: Config, port: Port, d: Decision, lastTrade: Option<DateTime>, now: DateTime): (r: RunResult)
    ensures |r.calls| == (if d.Place? then 4 else 3) && r.calls[..3] == Fetches(config)
    ensures d.Place? ==>
      && r.calls[3] == PlaceOrderCall(config.accountId, config.symbol, d.order, config.token)
      && r.outcome == Printed(Answer(port, r.calls[3]).message)
    ensures r.lastTrade == if d.Place? && Answer(port, r.calls[3]).success then Some(now) else lastTrade
    ensures r.outcome.Faulted? <==> d.Fault?
    ensures d.Fault? ==> r.outcome.error == d.error
  {
    match d
    case Fault(e) => RunResult(Faulted(e), Fetches(config), lastTrade)
    case Undefined => RunResult(SizingUndefined, Fetches(config), lastTrade)
    case Stay => RunResult(Printed(HoldMessage), Fetches(config), lastTrade)
    case Place(order) =>
      var result := port.placeOrder(config.accountId, config.symbol, order, config.token);
      RunResult(Printed(result.message),
                Fetches(config) + [PlaceOrderCall(config.accountId, config.symbol, order, config.token)],
                if result.success then RecordTrade(lastTrade, now) else lastTrade)
  }

  /**
   * The trade pipeline. It stops after one call exactly when the balance
   * is missing, after two exactly when the history is missing or empty,
   * and places an order only for a non-Hold signal; the trade record
   * changes exactly when a placement succeeds, and then to `now`.
   */
  function ExecuteTradePipeline(config: Config, port: Port, lastTrade: Option<DateTime>, now: DateTime): (r: RunResult)
    ensures FollowsProtocol(r.calls, config)
    ensures |r.calls| == 1 <==> port.fetchBalance(config.accountId, config.token).None?
    ensures |r.calls| == 1 ==> r.outcome == Printed(BalanceFailedMessage)
    ensures |r.calls| == 2 <==>
      port.fetchBalance(config.accountId, config.token).Some?
      && !HistoryUsable(port.fetchDailyHistory(config.symbol, config.strategy.lookbackDays, config.token))
    ensures |r.calls| == 2 ==> r.outcome == Printed(HistoryFailedMessage)
    ensures port.fetchBalance(config.accountId, config.token).Some?
      && HistoryUsable(port.fetchDailyHistory(config.symbol, config.strategy.lookbackDays, config.token))
      && port.fetchQuote(config.symbol, config.token).None?
      ==> |r.calls| == 3 && r.outcome == Printed(QuoteFailedMessage)
    ensures |r.calls| == 4 ==>
      && r.calls[3].order.signal != Hold
      && r.outcome == Printed(Answer(port, r.calls[3]).message)
    ensures r.lastTrade == if |r.calls| == 4 && Answer(port, r.calls[3]).success then Some(now) else lastTrade
    ensures r.outcome.Faulted? ==> r.outcome == Faulted(NotSupportedError(config.strategy.name))
                                   || r.outcome == Faulted(EmptySequenceError)
  {
    match port.fetchBalance(config.accountId, config.token)
    case None => RunResult(Printed(BalanceFailedMessage), [BalanceCall(config)], lastTrade)
    case Some(balance) =>
      var history := port.fetchDailyHistory(config.symbol, config.strategy.lookbackDays, config.token);
      if history.None? || |history.value| == 0 then
        RunResult(Printed(HistoryFailedMessage), [BalanceCall(config), HistoryCall(config)], lastTrade)
      else
        match port.fetchQuote(config.symbol, config.token)
        case None => RunResult(Printed(QuoteFailedMessage), Fetches(config), lastTrade)
        case Some(quote) => Act(config, port, Decide(config, balance, history.value, quote), lastTrade, now)
  }

  /** A non-Hold signal with a defined sizing places the sized order. */
  lemma DecidePlaces(config: Config, balance: real, history: seq<DailyData>, quote: QuoteData, signal: TrendSignal)
    ensures DetectSignal(config.strategy, quote, history) == Ok(signal) && signal != Hold
            && SizingDefined(quote.last, config.stopLossPercent)
            ==> Decide(config, balance, history, quote) == Place(CalculateOrder(quote, balance, signal, config))
  {
  }

  /** The pipeline's result once all three fetches have answered, by the decision taken. */
  lemma PipelineAfterFetches(config: Config, port: Port, lastTrade: Option<DateTime>, now: DateTime,
                             balance: real, history: seq<DailyData>, quote: QuoteData)
    requires port.fetchBalance(config.accountId, config.token) == Some(balance)
    requires port.fetchDailyHistory(config.symbol, config.strategy.lookbackDays, config.token) == Some(history)
    requires |history| > 0
    requires port.fetchQuote(config.symbol, config.token) == Some(quote)
    ensures ExecuteTradePipeline(config, port, lastTrade, now) == Act(config, port, Decide(config, balance, history, quote), lastTrade, now)
  {
  }

  /**
   * The entry point: a refusing gate's message is printed with no call
   * made and the record unchanged; an allowing gate hands over to the
   * pipeline.
   */
  function Run(config: Config, port: Port, constraint: Constraint, lastTrade: Option<DateTime>, clock: Clock, now: DateTime): (r: RunResult)
    ensures !CanTrade(constraint, lastTrade, clock).success ==>
      r == RunResult(Printed(CanTrade(constraint, lastTrade, clock).message), [], lastTrade)
    ensures CanTrade(constraint, lastTrade, clock).success ==> r == ExecuteTradePipeline(config, port, lastTrade, now)
  {
    var gate := CanTrade(constraint, lastTrade, clock);
    if !gate.success then RunResult(Printed(gate.message), [], lastTrade)
    else ExecuteTradePipeline(config, port, lastTrade, now)
  }

  /**
   * A placed order is the sized order for the signal the configured
   * strategy detects on the fetched quote and history, with the fetched
   * balance.
   */
  lemma PlacedOrderIsSized(config: Config, port: Port, lastTrade: Option<DateTime>, now: DateTime)
    ensures var balance := port.fetchBalance(config.accountId, config.token);
      var history := port.fetchDailyHistory(config.symbol, config.strategy.lookbackDays, config.token);
      var quote := port.fetchQuote(config.symbol, config.token);
      |ExecuteTradePipeline(config, port, lastTrade, now).calls| == 4 ==>
      && balance.Some? && HistoryUsable(history) && quote.Some?
      && DetectSignal(config.strategy, quote.value, history.value).Ok?
      && var signal := DetectSignal(config.strategy, quote.value, history.value).value;
      && signal != Hold
      && SizingDefined(quote.value.last, config.stopLossPercent)
      && ExecuteTradePipeline(config, port, lastTrade, now).calls[3].order
         == CalculateOrder(quote.value, balance.value, signal, config)
  {
  }

  /** A Hold signal ends the run after the three fetches with the Hold message. */
  lemma HoldPlacesNothing(config: Config, port: Port, lastTrade: Option<DateTime>, now: DateTime)
    requires port.fetchBalance(config.accountId, config.token).Some?
    requires HistoryUsable(port.fetchDailyHistory(config.symbol, config.strategy.lookbackDays, config.token))
    requires port.fetchQuote(config.symbol, config.token).Some?
    requires DetectSignal(config.strategy, port.fetchQuote(config.symbol, config.token).value,
                          port.fetchDailyHistory(config.symbol, config.strategy.lookbackDays, config.token).value) == Ok(Hold)
    ensures ExecuteTradePipeline(config, port, lastTrade, now)
            == RunResult(Printed(HoldMessage), [BalanceCall(config), HistoryCall(config), QuoteCall(config)], lastTrade)
  {
  }

  /**
   * An unsupported strategy name never places an order; with all three
   * fetches answered it ends in the uncaught exception.
   */
  lemma UnknownStrategyNeverTrades(config: Config, port: Port, lastTrade: Option<DateTime>, now: DateTime)
    requires !IsKnownStrategyName(config.strategy.name)
    ensures var r := ExecuteTradePipeline(config, port, lastTrade, now);
      |r.calls| <= 3 && r.lastTrade == lastTrade
    ensures port.fetchBalance(config.accountId, config.token).Some?
      && HistoryUsable(port.fetchDailyHistory(config.symbol, config.strategy.lookbackDays, config.token))
      && port.fetchQuote(config.symbol, config.token).Some?
      ==> ExecuteTradePipeline(config, port, lastTrade, now).outcome
          == Faulted(NotSupportedError(config.strategy.name))
  {
  }

  /** A refusing gate makes the run independent of the port and the configuration. */
  lemma GateRefusalIgnoresPort(config1: Config, port1: Port, config2: Config, port2: Port, constraint: Constraint,
                               lastTrade: Option<DateTime>, clock: Clock, now: DateTime)
    requires !CanTrade(constraint, lastTrade, clock).success
    ensures Run(config1, port1, constraint, lastTrade, clock, now) == Run(config2, port2, constraint, lastTrade, clock, now)
    ensures Run(config1, port1, constraint, lastTrade, clock, now).calls == []
  {
  }

  /** With the permissive gate every run goes straight to the pipeline, at any time of any day. */
  lemma AlwaysTradeNeverGated(config: Config, port: Port, lastTrade: Option<DateTime>, clock: Clock, now: DateTime)
    ensures Run(config, port, AlwaysTradeConstraint, lastTrade, clock, now) == ExecuteTradePipeline(config, port, lastTrade, now)
  {
  }

  /**
   * Under the default gate, a run that places an order successfully stops
   * every later run on the same local date at the gate, before any port call.
   */
  lemma OneTradePerDay(config: Config, port: Port, lastTrade: Option<DateTime>, clock: Clock, now: DateTime,
                       config2: Config, port2: Port, clock2: Clock, now2: DateTime)
    requires clock2.today == now.date
    ensures var first := Run(config, port, DefaultConstraint, lastTrade, clock, now);
      var second := Run(config2, port2, DefaultConstraint, first.lastTrade, clock2, now2);
      |first.calls| == 4 && Answer(port, first.calls[3]).success ==>
      second.calls == [] && second.lastTrade == first.lastTrade && !CanTrade(DefaultConstraint, first.lastTrade, clock2).success
  {
    var first := Run(config, port, DefaultConstraint, lastTrade, clock, now);
    if |first.calls| == 4 && Answer(port, first.calls[3]).success {
      assert first.lastTrade == RecordTrade(lastTrade, now);
      AtMostOneTradePerDay(lastTrade, now, clock2);
    }
  }

  /** Under the permissive gate a successful placement is still recorded in the shared record. */
  lemma AlwaysTradeStillRecords(config: Config, port: Port, lastTrade: Option<DateTime>, clock: Clock, now: DateTime)
    ensures var r := Run(config, port, AlwaysTradeConstraint, lastTrade, clock, now);
      |r.calls| == 4 && Answer(port, r.calls[3]).success ==> r.lastTrade == Some(now)
  {
    AlwaysTradeNeverGated(config, port, lastTrade, clock, now);
  }
}

=== FILE: platform.dfy ===
/**
 * The port through which the pipeline talks to a brokerage. Each
 * operation is a total function of its arguments: a missing quote,
 * history or balance is `None`, and order placement always answers
 * with a `Result`. The pipeline reports the calls it makes as a trace.
 */
module Platform {
  import opened Wrappers
  import opened Models

  datatype Port = Port(
    fetchQuote: (string, string) -> Option<QuoteData>,
    fetchDailyHistory: (string, int, string) -> Option<seq<DailyData>>,
    fetchBalance: (string, string) -> Option<real>,
    placeOrder: (string, string, Order, string) -> Result)

  /** One call made through the port, with its arguments. */
  datatype PortCall =
    | FetchBalanceCall(accountId: string, token: string)
    | FetchDailyHistoryCall(symbol: string, lookbackDays: int, token: string)
    | FetchQuoteCall(symbol: string, token: string)
    | PlaceOrderCall(accountId: string, symbol: string, order: Order, token: string)
}

=== FILE: scenarios.dfy ===
/**
 * Whole runs against the in-memory platform with its default data and
 * the command line's fixed parameters: symbol AAPL, 1% risk per trade,
 * a 2% stop-loss, a 10% position cap, and a five-day lookback and
 * moving-average period.
 */
module Scenarios {
  import opened Wrappers
  import opened Models
  import opened Series
  import opened Signals
  import opened Sizing
  import opened Constraints
  import opened Format
  import opened Platform
  import opened MockPlatform
  import opened TradingProgram

  function CommandLineConfig(strategy: string, constraintSet: string): Config
  {
    Config("Mock", "token", "mock-account", "AAPL", 0.01, 0.02, 0.10, StrategyConfig(strategy, 5, 5), constraintSet)
  }

  const DefaultMock: MockPlatform := Create(DefaultBalance, None, None)

  /** A Wednesday at noon, Eastern time. */
  const OpenClock: Clock := Clock(Wednesday, TimeOfDay(12, 0, 0), Date(2025, 5, 28))

  /** The mean of five values, term by term. */
  lemma AverageOfFive(xs: seq<real>)
    requires |xs| == 5
    ensures Average(xs) == (xs[0] + xs[1] + xs[2] + xs[3] + xs[4]) / 5.0
  {
    assert xs[..4][..3][..2][..1][..0] == [];
    assert Sum(xs[..1]) == xs[0];
    assert Sum(xs[..2]) == xs[0] + xs[1] by { assert xs[..2][..1] == xs[..1]; }
    assert Sum(xs[..3]) == xs[0] + xs[1] + xs[2] by { assert xs[..3][..2] == xs[..2]; }
    assert Sum(xs[..4]) == xs[0] + xs[1] + xs[2] + xs[3] by { assert xs[..4][..3] == xs[..3]; }
  }

  /** The default window is the whole default history. */
  lemma DefaultWindowIsWhole()
    ensures TakeLast(DefaultHistory, 5) == DefaultHistory
  {
  }

  /** The highs are 100, 105, 110, 108, 112 and the quote 115 is above all of them. */
  lemma DefaultQuoteAboveAllHighs()
    ensures AboveAllHighs(DefaultQuote.last, TakeLast(DefaultHistory, 5))
  {
    DefaultWindowIsWhole();
  }

  /** The mean close of the default window is 102.6. */
  lemma DefaultSma()
    ensures Sma(DefaultHistory, 5) == 102.6
  {
    DefaultWindowIsWhole();
    var closes := Closes(DefaultHistory);
    AverageOfFive(closes);
    assert closes[0] == 95.0 && closes[1] == 100.0 && closes[2] == 105.0 && closes[3] == 103.0 && closes[4] == 110.0;
  }

  /** The mean volume of the default window is 1320. */
  lemma DefaultAverageVolume()
    ensures AverageVolume(DefaultHistory, 5) == 1320.0
  {
    DefaultWindowIsWhole();
    var volumes := Volumes(DefaultHistory);
    AverageOfFive(volumes);
    assert volumes[0] == 1000.0 && volumes[1] == 1200.0 && volumes[2] == 1100.0 && volumes[3] == 1300.0 && volumes[4] == 2000.0;
  }

  /** The last default bar's volume 2000 exceeds 1.5 times the mean 1320. */
  lemma DefaultHighVolume()
    ensures HighVolume(DefaultHistory, 5)
  {
    DefaultAverageVolume();
    assert DefaultHistory[4].volume == 2000.0;
  }

  /** The order for a quote of 115 on the default balance: 8 shares, stop 2% away. */
  lemma DefaultOrder(signal: TrendSignal, config: Config)
    requires signal != Hold
    requires config.riskPerTradePercent == 0.01 && config.stopLossPercent == 0.02 && config.maxPositionPercent == 0.10
    ensures CalculateOrder(DefaultQuote, DefaultBalance, signal, config)
            == Order(signal, 8, 115.0, if signal == Buy then 112.7 else 117.3)
  {
    var stop := StopLossPrice(signal, 115.0, 0.02);
    assert stop == if signal == Buy then 112.7 else 117.3;
    assert Abs(115.0 - stop) == 2.3;
    assert RiskAmount(DefaultBalance, 0.01) == 100.0;
    assert MaxPositionValue(DefaultBalance, 0.10) == 1000.0;
    assert RiskQuantity(100.0, 115.0, stop) == 43 by {
      assert 43.0 * 2.3 <= 100.0 < 44.0 * 2.3;
    }
    assert CapQuantity(1000.0, 115.0) == 8 by {
      assert 8.0 * 115.0 <= 1000.0 < 9.0 * 115.0;
    }
  }

  /** The fetches against the default platform with the command-line configuration. */
  lemma DefaultFetches(config: Config, m: MockPlatform)
    requires m.history == DefaultHistory && m.quote == DefaultQuote
    requires config.symbol == "AAPL" && config.strategy.lookbackDays == 5
    ensures AsPort(m).fetchBalance(config.accountId, config.token) == Some(m.balance)
    ensures AsPort(m).fetchDailyHistory(config.symbol, config.strategy.lookbackDays, config.token) == Some(DefaultHistory)
    ensures AsPort(m).fetchQuote(config.symbol, config.token) == Some(DefaultQuote)
  {
    DefaultWindowIsWhole();
  }

  /** The default Buy order: 8 shares at 115 with the stop at 112.70. */
  const BuyOrder: Order := Order(Buy, 8, 115.0, 112.7)
  /** The default Sell order: 8 shares at 115 with the stop at 117.30. */
  const SellOrder: Order := Order(Sell, 8, 115.0, 117.3)

  /** The `F2` text of a non-negative value with at most two decimals. */
  lemma Fixed2OfCents(x: real, whole: nat, cents: nat)
    requires cents < 100 && x == whole as real + cents as real / 100.0
    ensures Fixed2(x) == NatToString(whole) + "." + [DigitChar(cents / 10), DigitChar(cents % 10)]
  {
    var c := whole * 100 + cents;
    assert x * 100.0 == c as real;
    assert Hundredths(x) == c by {
      assert !(x < 0.0);
      var n := RoundHalfUp(c as real);
      assert n as real - 0.5 <= c as real < n as real + 0.5;
    }
    assert c / 100 == whole && c % 100 == cents;
  }

  lemma EntryPriceText()
    ensures Fixed2(115.0) == "115.00"
  {
    assert NatToString(115) == NatToString(11) + [DigitChar(5)] == [DigitChar(1), DigitChar(1), DigitChar(5)] == "115";
    Fixed2OfCents(115.0, 115, 0);
  }

  lemma BuyStopText()
    ensures Fixed2(112.7) == "112.70"
  {
    assert NatToString(112) == NatToString(11) + [DigitChar(2)] == [DigitChar(1), DigitChar(1), DigitChar(2)] == "112";
    Fixed2OfCents(112.7, 112, 70);
  }

  lemma SellStopText()
    ensures Fixed2(117.3) == "117.30"
  {
    assert NatToString(117) == NatToString(11) + [DigitChar(7)] == [DigitChar(1), DigitChar(1), DigitChar(7)] == "117";
    Fixed2OfCents(117.3, 117, 30);
  }

  /**
   * The run's result on a mock holding the default balance and quote and a
   * history the five-day window covers, once detection gives `signal`.
   */
  lemma PlacesDefaultOrder(config: Config, m: MockPlatform, signal: TrendSignal,
                           lastTrade: Option<DateTime>, now: DateTime)
    requires m.balance == DefaultBalance && m.quote == DefaultQuote
    requires |m.history| > 0 && TakeLast(m.history, 5) == m.history
    requires config.symbol == "AAPL" && config.strategy.lookbackDays == 5
    requires config.riskPerTradePercent == 0.01 && config.stopLossPercent == 0.02 && config.maxPositionPercent == 0.10
    requires DetectSignal(config.strategy, DefaultQuote, m.history) == Ok(signal) && signal != Hold
    ensures var order := Order(signal, 8, 115.0, if signal == Buy then 112.7 else 117.3);
      ExecuteTradePipeline(config, AsPort(m), lastTrade, now)
      == RunResult(Printed(OrderPlacedMessage(config.symbol, order)),
                   [BalanceCall(config), HistoryCall(config), QuoteCall(config),
                    PlaceOrderCall(config.accountId, config.symbol, order, config.token)],
                   Some(now))
  {
    var order := Order(signal, 8, 115.0, if signal == Buy then 112.7 else 117.3);
    var port := AsPort(m);
    assert port.fetchBalance(config.accountId, config.token) == Some(DefaultBalance);
    assert port.fetchDailyHistory(config.symbol, config.strategy.lookbackDays, config.token) == Some(m.history);
    assert port.fetchQuote(config.symbol, config.token) == Some(DefaultQuote);
    DefaultOrder(signal, config);
    DecidePlaces(config, DefaultBalance, m.history, DefaultQuote, signal);
    PipelineAfterFetches(config, port, lastTrade, now, DefaultBalance, m.history, DefaultQuote);
    AcceptsPositiveQuantity(m, config.accountId, config.symbol, order, config.token);
  }

  /** Trend following buys: the quote 115 is above the highest high 112. */
  lemma TrendFollowingBuys(m: MockPlatform, lastTrade: Option<DateTime>, now: DateTime)
    requires m == DefaultMock
    ensures var r := Run(CommandLineConfig("TrendFollowing", "AlwaysTrade"), AsPort(m), AlwaysTradeConstraint,
                         lastTrade, OpenClock, now);
      r.outcome == Printed(OrderPlacedMessage("AAPL", BuyOrder)) && |r.calls| == 4 && r.lastTrade == Some(now)
  {
    var config := CommandLineConfig("TrendFollowing", "AlwaysTrade");
    DefaultQuoteAboveAllHighs();
    assert DetectSignal(config.strategy, DefaultQuote, DefaultHistory) == Ok(Buy);
    DefaultWindowIsWhole();
    PlacesDefaultOrder(config, m, Buy, lastTrade, now);
  }

  /** On the default data the breakout detector gives Buy. */
  lemma BreakoutDetectsBuy(strategy: StrategyConfig)
    requires strategy.name == "Breakout" && strategy.lookbackDays == 5
    ensures DetectSignal(strategy, DefaultQuote, DefaultHistory) == Ok(Buy)
  {
    DefaultQuoteAboveAllHighs();
    DefaultHighVolume();
    assert DetectTrendFollowing(DefaultQuote, DefaultHistory, 5) == Buy;
    assert DetectBreakout(DefaultQuote, DefaultHistory, 5) == Buy;
  }

  /** Breakout buys: the last volume 2000 exceeds 1.5 times the mean 1320, and the quote is above 112. */
  lemma BreakoutBuys(m: MockPlatform, lastTrade: Option<DateTime>, now: DateTime)
    requires m == DefaultMock
    ensures Run(CommandLineConfig("Breakout", "AlwaysTrade"), AsPort(m), AlwaysTradeConstraint,
                lastTrade, OpenClock, now).outcome == Printed(OrderPlacedMessage("AAPL", BuyOrder))
  {
    var config := CommandLineConfig("Breakout", "AlwaysTrade");
    BreakoutDetectsBuy(config.strategy);
    DefaultWindowIsWhole();
    PlacesDefaultOrder(config, m, Buy, lastTrade, now);
  }

  /** Mean reversion sells: the quote 115 is above the mean close 102.6. */
  lemma MeanReversionSells(m: MockPlatform, lastTrade: Option<DateTime>, now: DateTime)
    requires m == DefaultMock
    ensures Run(CommandLineConfig("MeanReversion", "AlwaysTrade"), AsPort(m), AlwaysTradeConstraint,
                lastTrade, OpenClock, now).outcome == Printed(OrderPlacedMessage("AAPL", SellOrder))
  {
    var config := CommandLineConfig("MeanReversion", "AlwaysTrade");
    DefaultSma();
    assert DetectSignal(config.strategy, DefaultQuote, DefaultHistory) == Ok(Sell);
    DefaultWindowIsWhole();
    PlacesDefaultOrder(config, m, Sell, lastTrade, now);
  }

  /** At noon on a Wednesday, with no trade recorded, the default gate allows trading. */
  lemma OpenClockAllows()
    ensures CanTrade(DefaultConstraint, None, OpenClock) == Result(true, TradeAllowedMessage)
  {
    assert IsWeekday(OpenClock.easternDay) && WithinMarketHours(OpenClock.easternTimeOfDay);
  }

  /** Under the default gate, the first trend-following run of the day at noon places the Buy order. */
  lemma DefaultGateFirstRun(m: MockPlatform, now: DateTime)
    requires m == DefaultMock
    ensures var first := Run(CommandLineConfig("TrendFollowing", "Default"), AsPort(m), DefaultConstraint, None, OpenClock, now);
      first.outcome == Printed(OrderPlacedMessage("AAPL", BuyOrder)) && first.lastTrade == Some(now)
  {
    var config := CommandLineConfig("TrendFollowing", "Default");
    DefaultQuoteAboveAllHighs();
    assert DetectSignal(config.strategy, DefaultQuote, DefaultHistory) == Ok(Buy);
    OpenClockAllows();
    DefaultWindowIsWhole();
    PlacesDefaultOrder(config, m, Buy, None, now);
  }

  /** A second run later the same day stops at the gate without a port call. */
  lemma DefaultGateSecondRunRefused(m: MockPlatform, now: DateTime, later: Clock)
    requires m == DefaultMock
    requires now.date == OpenClock.today && later.today == OpenClock.today
    requires IsWeekday(later.easternDay) && WithinMarketHours(later.easternTimeOfDay)
    ensures var config := CommandLineConfig("TrendFollowing", "Default");
      var first := Run(config, AsPort(m), DefaultConstraint, None, OpenClock, now);
      Run(config, AsPort(m), DefaultConstraint, first.lastTrade, later, now)
      == RunResult(Printed(TradeLimitMessage), [], Some(now))
  {
    DefaultGateFirstRun(m, now);
    AtMostOneTradePerDay(None, now, later);
  }

  /** The order for a quote of 115 on a balance of 100: the risk amount 1 buys no share. */
  lemma SmallBalanceOrder(config: Config)
    requires config.riskPerTradePercent == 0.01 && config.stopLossPercent == 0.02 && config.maxPositionPercent == 0.10
    ensures CalculateOrder(DefaultQuote, 100.0, Buy, config) == Order(Buy, 0, 115.0, 112.7)
  {
    var stop := StopLossPrice(Buy, 115.0, 0.02);
    assert Abs(115.0 - stop) == 2.3;
    assert RiskAmount(100.0, 0.01) == 1.0;
    assert MaxPositionValue(100.0, 0.10) == 10.0;
    assert RiskQuantity(1.0, 115.0, stop) == 0;
  }

  /** With a balance of 100 the platform refuses the empty order and nothing is recorded. */
  lemma SmallBalanceRefused(m: MockPlatform, lastTrade: Option<DateTime>, now: DateTime)
    requires m == Create(100.0, None, None)
    ensures var r := Run(CommandLineConfig("TrendFollowing", "AlwaysTrade"), AsPort(m),
                         AlwaysTradeConstraint, lastTrade, OpenClock, now);
      && r.outcome == Printed(PositionTooSmallMessage)
      && |r.calls| == 4 && r.calls[3].order.quantity == 0
      && r.lastTrade == lastTrade
  {
    var config := CommandLineConfig("TrendFollowing", "AlwaysTrade");
    DefaultQuoteAboveAllHighs();
    DefaultFetches(config, m);
    assert DetectSignal(config.strategy, DefaultQuote, DefaultHistory) == Ok(Buy);
    SmallBalanceOrder(config);
    DecidePlaces(config, 100.0, DefaultHistory, DefaultQuote, Buy);
    PipelineAfterFetches(config, AsPort(m), lastTrade, now, 100.0, DefaultHistory, DefaultQuote);
  }

  /** A strategy name the dispatcher does not know ends the run in the uncaught exception. */
  lemma UnknownStrategyFaults(m: MockPlatform, lastTrade: Option<DateTime>, now: DateTime)
    requires m.history == DefaultHistory && m.quote == DefaultQuote
    ensures var config := CommandLineConfig("Momentum", "AlwaysTrade");
      Run(config, AsPort(m), AlwaysTradeConstraint, lastTrade, OpenClock, now)
      == RunResult(Faulted(NotSupportedError("Momentum")),
                   [BalanceCall(config), HistoryCall(config), QuoteCall(config)], lastTrade)
  {
    var config := CommandLineConfig("Momentum", "AlwaysTrade");
    DefaultFetches(config, m);
    assert DetectSignal(config.strategy, DefaultQuote, DefaultHistory) == Thrown(NotSupportedError("Momentum"));
    assert Decide(config, m.balance, DefaultHistory, DefaultQuote) == Fault(NotSupportedError("Momentum"));
    PipelineAfterFetches(config, AsPort(m), lastTrade, now, m.balance, DefaultHistory, DefaultQuote);
  }
}

=== FILE: series.dfy ===
/**
 * The sequence operations the detectors take from LINQ (`TakeLast`, `Max`,
 * `Min`, `Average`) and the C# `(int)` conversion of a real.
 */
module Series {

  /**
   * The last `count` elements of `xs` (all of them when there are fewer);
   * a non-positive count yields the empty sequence, as LINQ does.
   */
  function TakeLast<T>(xs: seq<T>, count: int): (r: seq<T>)
    ensures |r| == if count <= 0 then 0 else if count < |xs| then count else |xs|
    ensures xs == xs[..|xs| - |r|] + r
  {
    if count <= 0 then []
    else if count < |xs| then xs[|xs| - count..]
    else xs
  }

  /** The largest element: it bounds every element and is one of them. */
  function Max(xs: seq<real>): (m: real)
    requires |xs| > 0
    ensures forall i :: 0 <= i < |xs| ==> xs[i] <= m
    ensures exists i :: 0 <= i < |xs| && xs[i] == m
  {
    if |xs| == 1 then xs[0]
    else
      var rest := Max(xs[1..]);
      assert forall i :: 1 <= i < |xs| ==> xs[i] == xs[1..][i - 1];
      if xs[0] > rest then xs[0] else rest
  }

  /** The smallest element: it is below every element and is one of them. */
  function Min(xs: seq<real>): (m: real)
    requires |xs| > 0
    ensures forall i :: 0 <= i < |xs| ==> m <= xs[i]
    ensures exists i :: 0 <= i < |xs| && xs[i] == m
  {
    if |xs| == 1 then xs[0]
    else
      var rest := Min(xs[1..]);
      assert forall i :: 1 <= i < |xs| ==> xs[i] == xs[1..][i - 1];
      if xs[0] < rest then xs[0] else rest
  }

  /** The left-to-right sum. */
  function Sum(xs: seq<real>): real
  {
    if |xs| == 0 then 0.0 else Sum(xs[..|xs| - 1]) + xs[|xs| - 1]
  }

  /** Every element at most `bound` keeps the sum at most `|xs| * bound`. */
  lemma {:induction false} SumAtMost(xs: seq<real>, bound: real)
    requires forall i :: 0 <= i < |xs| ==> xs[i] <= bound
    ensures Sum(xs) <= |xs| as real * bound
  {
    if |xs| > 0 {
      SumAtMost(xs[..|xs| - 1], bound);
    }
  }

  /** Every element at least `bound` keeps the sum at least `|xs| * bound`. */
  lemma {:induction false} SumAtLeast(xs: seq<real>, bound: real)
    requires forall i :: 0 <= i < |xs| ==> bound <= xs[i]
    ensures |xs| as real * bound <= Sum(xs)
  {
    if |xs| > 0 {
      SumAtLeast(xs[..|xs| - 1], bound);
    }
  }

  /** The arithmetic mean, as LINQ's `Average` computes it. */
  function Average(xs: seq<real>): real
    requires |xs| > 0
  {
    Sum(xs) / |xs| as real
  }

  /** A mean is bounded by any bounds of the elements. */
  lemma AverageWithin(xs: seq<real>, lo: real, hi: real)
    requires |xs| > 0
    requires forall i :: 0 <= i < |xs| ==> lo <= xs[i] <= hi
    ensures lo <= Average(xs) <= hi
  {
    SumAtMost(xs, hi);
    SumAtLeast(xs, lo);
    QuotientBetween(Sum(xs), |xs| as real, lo, hi);
  }

  /** A mean lies between the smallest and the largest element. */
  lemma AverageBetweenExtremes(xs: seq<real>)
    requires |xs| > 0
    ensures Min(xs) <= Average(xs) <= Max(xs)
  {
    AverageWithin(xs, Min(xs), Max(xs));
  }

  /** Dividing `n * lo <= s <= n * hi` by a positive `n`. */
  lemma QuotientBetween(s: real, n: real, lo: real, hi: real)
    requires n > 0.0
    requires n * lo <= s <= n * hi
    ensures lo <= s / n <= hi
    ensures (s / n) * n == s
  {
    var q := s / n;
    assert q * n == s;
    assert n * (q - lo) >= 0.0;
    assert n * (hi - q) >= 0.0;
  }

  /**
   * The C# `(int)` conversion of a real: truncation toward zero. Overflow
   * of the 32-bit range is not modelled.
   */
  function TruncateToInt(x: real): (n: int)
    ensures 0.0 <= x ==> 0 <= n && n as real <= x < n as real + 1.0
    ensures x <= 0.0 ==> n <= 0 && n as real - 1.0 < x <= n as real
  {
    if x >= 0.0 then x.Floor else -((-x).Floor)
  }

  /** Truncation toward zero is monotone. */
  lemma TruncateMonotone(x: real, y: real)
    requires x <= y
    ensures TruncateToInt(x) <= TruncateToInt(y)
  {
    if x >= 0.0 {
      assert x.Floor <= y.Floor;
    } else if y <= 0.0 {
      assert (-y).Floor <= (-x).Floor;
    }
  }
}

=== FILE: signals.dfy ===
/**
 * Signal detection: each strategy maps a quote and the daily history to
 * Buy, Sell or Hold, looking only at a window of the most recent bars.
 * All comparisons are strict, so ties give Hold.
 */
module Signals {
  import opened Wrappers
  import opened Models
  import opened Series

  /** A strategy whose name has been recognised, with the window it reads. */
  datatype Strategy =
    | TrendFollowing(lookbackDays: int)
    | MeanReversion(smaPeriod: int)
    | Breakout(lookbackDays: int)

  /** The number of most recent bars the strategy reads. */
  function WindowOf(s: Strategy): int
  {
    match s
    case TrendFollowing(k) => k
    case MeanReversion(p) => p
    case Breakout(k) => k
  }

  /** True of the three strategy names the dispatcher knows. */
  predicate IsKnownStrategyName(name: string)
  {
    name == "TrendFollowing" || name == "MeanReversion" || name == "Breakout"
  }

  /** The message of the exception an unknown strategy name raises. */
  function NotSupportedError(name: string): string
  {
    "Strategy " + name + " not supported."
  }

  /**
   * The dispatch on the configured name. An unknown name throws; the
   * window of MeanReversion is the moving-average period, the others use
   * the lookback.
   */
  function Resolve(config: StrategyConfig): (r: Attempt<Strategy>)
    ensures r.Ok? <==> IsKnownStrategyName(config.name)
    ensures r.Thrown? ==> r.error == NotSupportedError(config.name)
    ensures r.Ok? ==> (r.value.TrendFollowing? <==> config.name == "TrendFollowing")
    ensures r.Ok? ==> (r.value.Breakout? <==> config.name == "Breakout")
    ensures r.Ok? ==> WindowOf(r.value) == if r.value.MeanReversion? then config.smaPeriod else config.lookbackDays
  {
    if config.name == "TrendFollowing" then Ok(TrendFollowing(config.lookbackDays))
    else if config.name == "MeanReversion" then Ok(MeanReversion(config.smaPeriod))
    else if config.name == "Breakout" then Ok(Breakout(config.lookbackDays))
    else Thrown(NotSupportedError(config.name))
  }

  function Highs(w: seq<DailyData>): (r: seq<real>)
    ensures |r| == |w| && forall i :: 0 <= i < |w| ==> r[i] == w[i].high
  {
    seq(|w|, i requires 0 <= i < |w| => w[i].high)
  }

  function Lows(w: seq<DailyData>): (r: seq<real>)
    ensures |r| == |w| && forall i :: 0 <= i < |w| ==> r[i] == w[i].low
  {
    seq(|w|, i requires 0 <= i < |w| => w[i].low)
  }

  function Closes(w: seq<DailyData>): (r: seq<real>)
    ensures |r| == |w| && forall i :: 0 <= i < |w| ==> r[i] == w[i].close
  {
    seq(|w|, i requires 0 <= i < |w| => w[i].close)
  }

  function Volumes(w: seq<DailyData>): (r: seq<real>)
    ensures |r| == |w| && forall i :: 0 <= i < |w| ==> r[i] == w[i].volume
  {
    seq(|w|, i requires 0 <= i < |w| => w[i].volume)
  }

  /** Highest high of the last `k` bars. */
  function RecentHigh(history: seq<DailyData>, k: int): real
    requires k >= 1 && |history| >= 1
  {
    Max(Highs(TakeLast(history, k)))
  }

  /** Lowest low of the last `k` bars. */
  function RecentLow(history: seq<DailyData>, k: int): real
    requires k >= 1 && |history| >= 1
  {
    Min(Lows(TakeLast(history, k)))
  }

  /** Simple moving average of the closes of the last `p` bars. */
  function Sma(history: seq<DailyData>, p: int): real
    requires p >= 1 && |history| >= 1
  {
    Average(Closes(TakeLast(history, p)))
  }

  /** Mean volume of the last `k` bars. */
  function AverageVolume(history: seq<DailyData>, k: int): real
    requires k >= 1 && |history| >= 1
  {
    Average(Volumes(TakeLast(history, k)))
  }

  /** The price is strictly above every high of the window. */
  predicate AboveAllHighs(price: real, w: seq<DailyData>)
  {
    forall i :: 0 <= i < |w| ==> price > w[i].high
  }

  /** The price is strictly below every low of the window. */
  predicate BelowAllLows(price: real, w: seq<DailyData>)
  {
    forall i :: 0 <= i < |w| ==> price < w[i].low
  }

  /**
   * Trend following: Buy exactly when the quote clears every high of the
   * window, otherwise Sell exactly when it undercuts every low, otherwise
   * Hold. A quote equal to an extreme is not a breach.
   */
  function DetectTrendFollowing(quote: QuoteData, history: seq<DailyData>, lookbackDays: int): (s: TrendSignal)
    requires lookbackDays >= 1 && |history| >= 1
    ensures s == Buy <==> AboveAllHighs(quote.last, TakeLast(history, lookbackDays))
    ensures s == Sell <==>
      !AboveAllHighs(quote.last, TakeLast(history, lookbackDays))
      && BelowAllLows(quote.last, TakeLast(history, lookbackDays))
  {
    var recentHigh := RecentHigh(history, lookbackDays);
    var recentLow := RecentLow(history, lookbackDays);
    if quote.last > recentHigh then Buy
    else if quote.last < recentLow then Sell
    else Hold
  }

  /**
   * Mean reversion: Buy exactly when the quote is below the moving average
   * of the closes, Sell exactly when it is above, Hold on equality.
   */
  function DetectMeanReversion(quote: QuoteData, history: seq<DailyData>, smaPeriod: int): (s: TrendSignal)
    requires smaPeriod >= 1 && |history| >= 1
    ensures s == Buy <==> quote.last < Sma(history, smaPeriod)
    ensures s == Sell <==> quote.last > Sma(history, smaPeriod)
  {
    var sma := Sma(history, smaPeriod);
    if quote.last < sma then Buy
    else if quote.last > sma then Sell
    else Hold
  }

  /** The latest bar of the whole history trades more than 1.5 times the window's mean volume. */
  predicate HighVolume(history: seq<DailyData>, lookbackDays: int)
    requires lookbackDays >= 1 && |history| >= 1
  {
    history[|history| - 1].volume > AverageVolume(history, lookbackDays) * 1.5
  }

  /**
   * Breakout: the trend-following verdict over the same window, but only
   * on a high-volume day; otherwise Hold.
   */
  function DetectBreakout(quote: QuoteData, history: seq<DailyData>, lookbackDays: int): (s: TrendSignal)
    requires lookbackDays >= 1 && |history| >= 1
    ensures s == if HighVolume(history, lookbackDays) then DetectTrendFollowing(quote, history, lookbackDays) else Hold
  {
    var recentHigh := RecentHigh(history, lookbackDays);
    var recentLow := RecentLow(history, lookbackDays);
    var highVolume := HighVolume(history, lookbackDays);
    if highVolume && quote.last > recentHigh then Buy
    else if highVolume && quote.last < recentLow then Sell
    else Hold
  }

  /** The detector of a recognised strategy. */
  function Detect(strategy: Strategy, quote: QuoteData, history: seq<DailyData>): TrendSignal
    requires WindowOf(strategy) >= 1 && |history| >= 1
  {
    match strategy
    case TrendFollowing(k) => DetectTrendFollowing(quote, history, k)
    case MeanReversion(p) => DetectMeanReversion(quote, history, p)
    case Breakout(k) => DetectBreakout(quote, history, k)
  }

  /** The message LINQ's `Max`, `Min` and `Average` throw on an empty sequence. */
  const EmptySequenceError: string := "Sequence contains no elements"

  /**
   * Name dispatch followed by detection. It throws for an unknown name
   * and, because the window is then empty, for an empty history or a
   * non-positive window length.
   */
  function DetectSignal(config: StrategyConfig, quote: QuoteData, history: seq<DailyData>): (r: Attempt<TrendSignal>)
    ensures !IsKnownStrategyName(config.name) ==> r == Thrown(NotSupportedError(config.name))
    ensures IsKnownStrategyName(config.name) ==>
      (r.Ok? <==> |history| >= 1 && WindowOf(Resolve(config).value) >= 1)
    ensures r.Thrown? && IsKnownStrategyName(config.name) ==> r.error == EmptySequenceError
    ensures r.Ok? ==> r.value == Detect(Resolve(config).value, quote, history)
  {
    match Resolve(config)
    case Thrown(e) => Thrown(e)
    case Ok(strategy) =>
      if WindowOf(strategy) < 1 || |history| < 1 then Thrown(EmptySequenceError)
      else Ok(Detect(strategy, quote, history))
  }

  /** With a positive window the latest bar of the history is the last bar of the window. */
  lemma LatestBarInWindow(history: seq<DailyData>, k: int)
    requires k >= 1 && |history| >= 1
    ensures |TakeLast(history, k)| >= 1
    ensures TakeLast(history, k)[|TakeLast(history, k)| - 1] == history[|history| - 1]
  {
    var w := TakeLast(history, k);
    assert history == history[..|history| - |w|] + w;
    assert history[|history| - 1] == (history[..|history| - |w|] + w)[|history| - 1];
  }

  /** Every bar's low is at most its high. */
  predicate WellFormedBars(w: seq<DailyData>)
  {
    forall i :: 0 <= i < |w| ==> w[i].low <= w[i].high
  }

  /** On well-formed bars the recent low is at most the recent high. */
  lemma RecentLowAtMostHigh(history: seq<DailyData>, k: int)
    requires k >= 1 && |history| >= 1
    requires WellFormedBars(TakeLast(history, k))
    ensures RecentLow(history, k) <= RecentHigh(history, k)
  {
    var w := TakeLast(history, k);
    var highs, lows := Highs(w), Lows(w);
    assert Min(lows) <= lows[0] <= highs[0] <= Max(highs);
  }

  /**
   * On well-formed bars a quote equal to the recent high or the recent low
   * yields Hold.
   */
  lemma TrendFollowingTiesHold(quote: QuoteData, history: seq<DailyData>, k: int)
    requires k >= 1 && |history| >= 1
    requires WellFormedBars(TakeLast(history, k))
    requires quote.last == RecentHigh(history, k) || quote.last == RecentLow(history, k)
    ensures DetectTrendFollowing(quote, history, k) == Hold
  {
    RecentLowAtMostHigh(history, k);
  }

  /**
   * A mean-reversion Buy means some close of the window is above the
   * quote, and a Sell means some close is below it.
   */
  lemma MeanReversionAgainstCloses(quote: QuoteData, history: seq<DailyData>, p: int)
    requires p >= 1 && |history| >= 1
    ensures var w := TakeLast(history, p);
      && (DetectMeanReversion(quote, history, p) == Buy ==> exists i :: 0 <= i < |w| && quote.last < w[i].close)
      && (DetectMeanReversion(quote, history, p) == Sell ==> exists i :: 0 <= i < |w| && quote.last > w[i].close)
  {
    var w := TakeLast(history, p);
    var closes := Closes(w);
    if forall i :: 0 <= i < |w| ==> w[i].close <= quote.last {
      AverageWithin(closes, Min(closes), quote.last);
    }
    if forall i :: 0 <= i < |w| ==> quote.last <= w[i].close {
      AverageWithin(closes, quote.last, Max(closes));
    }
  }
}

=== FILE: sizing.dfy ===
/**
 * Order sizing: the stop-loss price, a quantity paid for by the per-trade
 * risk budget at the stop distance, and a clamp by the maximum position
 * value. Quantities are truncated toward zero, as the C# `(int)` cast does.
 */
module Sizing {
  import opened Models
  import opened Series

  function Abs(x: real): real
  {
    if x < 0.0 then -x else x
  }

  /** Sizing divides by the stop distance and the entry price, so both must be non-zero. */
  predicate SizingDefined(entry: real, stopLossPercent: real)
  {
    entry != 0.0 && stopLossPercent != 0.0
  }

  /** Below the entry for a Buy, above it for a Sell. */
  function StopLossPrice(signal: TrendSignal, entry: real, stopLossPercent: real): real
  {
    if signal == Buy then entry * (1.0 - stopLossPercent) else entry * (1.0 + stopLossPercent)
  }

  /** The stop lies `entry * stopLossPercent` away from the entry on either side. */
  lemma StopDistance(signal: TrendSignal, entry: real, stopLossPercent: real)
    ensures Abs(entry - StopLossPrice(signal, entry, stopLossPercent)) == Abs(entry * stopLossPercent)
    ensures SizingDefined(entry, stopLossPercent) ==> Abs(entry * stopLossPercent) > 0.0
  {
    if signal == Buy {
      assert entry - entry * (1.0 - stopLossPercent) == entry * stopLossPercent;
    } else {
      assert entry - entry * (1.0 + stopLossPercent) == -(entry * stopLossPercent);
    }
  }

  /** The money the trade may lose. */
  function RiskAmount(balance: real, riskPercent: real): real
  {
    balance * riskPercent
  }

  /** The largest value the position may have. */
  function MaxPositionValue(balance: real, maxPercent: real): real
  {
    balance * maxPercent
  }

  /** Whole shares the risk amount pays for at the stop distance. */
  function RiskQuantity(riskAmount: real, entry: real, stop: real): int
    requires entry != stop
  {
    TruncateToInt(riskAmount / Abs(entry - stop))
  }

  /** Whole shares the maximum position value pays for at the entry price. */
  function CapQuantity(maxPositionValue: real, entry: real): int
    requires entry != 0.0
  {
    TruncateToInt(maxPositionValue / entry)
  }

  /** The max-position constraint: fall back to `cap` when `risk` shares cost more than the cap. */
  function Clamp(risk: int, entry: real, maxPositionValue: real, cap: int): int
  {
    if risk as real * entry > maxPositionValue then cap else risk
  }

  /**
   * The order for a signal. Hold gives the all-zero order; otherwise the
   * entry is the quote, the stop is on the losing side, and the quantity
   * is the risk quantity unless its value exceeds the position cap, in
   * which case it is the cap quantity.
   */
  function CalculateOrder(quote: QuoteData, balance: real, signal: TrendSignal, config: Config): (o: Order)
    requires signal != Hold ==> SizingDefined(quote.last, config.stopLossPercent)
    ensures o.signal == signal
    ensures signal == Hold ==> o == Order(Hold, 0, 0.0, 0.0)
    ensures signal != Hold ==> o.entryPrice == quote.last
    ensures signal == Buy ==> o.stopLossPrice == quote.last * (1.0 - config.stopLossPercent)
    ensures signal == Sell ==> o.stopLossPrice == quote.last * (1.0 + config.stopLossPercent)
  {
    if signal == Hold then Order(signal, 0, 0.0, 0.0)
    else
      var entry := quote.last;
      var stop := StopLossPrice(signal, entry, config.stopLossPercent);
      StopDistance(signal, entry, config.stopLossPercent);
      var quantity := RiskQuantity(RiskAmount(balance, config.riskPerTradePercent), entry, stop);
      var maxPositionValue := MaxPositionValue(balance, config.maxPositionPercent);
      Order(signal, Clamp(quantity, entry, maxPositionValue, CapQuantity(maxPositionValue, entry)), entry, stop)
  }

  /** The stop and quantity of a non-Hold order, spelled out through their parts. */
  lemma OrderParts(quote: QuoteData, balance: real, signal: TrendSignal, config: Config)
    requires signal != Hold && SizingDefined(quote.last, config.stopLossPercent)
    ensures StopLossPrice(signal, quote.last, config.stopLossPercent) != quote.last
    ensures var o := CalculateOrder(quote, balance, signal, config);
      var stop := StopLossPrice(signal, quote.last, config.stopLossPercent);
      var maxPositionValue := MaxPositionValue(balance, config.maxPositionPercent);
      && o.stopLossPrice == stop
      && o.quantity ==
        Clamp(RiskQuantity(RiskAmount(balance, config.riskPerTradePercent), quote.last, stop), quote.last,
              maxPositionValue, CapQuantity(maxPositionValue, quote.last))
  {
    StopDistance(signal, quote.last, config.stopLossPercent);
  }

  /** `x * e <= m` exactly when `x <= m / e`, for positive `e`. */
  lemma MulAtMostIffAtMostDiv(x: real, m: real, e: real)
    requires e > 0.0
    ensures x * e <= m <==> x <= m / e
  {
    var q := m / e;
    assert q * e == m;
    assert x * e - m == (x - q) * e;
  }

  /**
   * The clamp never raises the risk quantity and yields the smaller of the
   * two quantities; with a non-negative cap value it keeps the position
   * value within the cap.
   */
  lemma ClampArithmetic(risk: int, entry: real, maxPositionValue: real)
    requires entry > 0.0
    ensures Clamp(risk, entry, maxPositionValue, CapQuantity(maxPositionValue, entry)) <= risk
    ensures Clamp(risk, entry, maxPositionValue, CapQuantity(maxPositionValue, entry))
      == MinInt(risk, CapQuantity(maxPositionValue, entry))
    ensures maxPositionValue >= 0.0 ==>
      Clamp(risk, entry, maxPositionValue, CapQuantity(maxPositionValue, entry)) as real * entry <= maxPositionValue
  {
    var x := maxPositionValue / entry;
    var cap := CapQuantity(maxPositionValue, entry);
    assert cap == TruncateToInt(x);
    MulAtMostIffAtMostDiv(risk as real, maxPositionValue, entry);
    MulAtMostIffAtMostDiv(cap as real, maxPositionValue, entry);
    if risk as real * entry > maxPositionValue {
      assert cap as real < x + 1.0;
    } else {
      assert risk as real <= x;
      assert risk <= cap;
    }
  }

  /** Once the clamp fires for some quantity it fires for every larger one, with the same result. */
  lemma ClampOnceFired(low: int, high: int, entry: real, maxPositionValue: real, cap: int)
    requires low <= high && entry > 0.0
    ensures low as real * entry > maxPositionValue ==>
      Clamp(high, entry, maxPositionValue, cap) == cap == Clamp(low, entry, maxPositionValue, cap)
  {
    assert low as real * entry <= high as real * entry by {
      assert high as real * entry - low as real * entry == (high - low) as real * entry;
    }
  }

  function MinInt(a: int, b: int): int
  {
    if a <= b then a else b
  }

  /** Scaling by a non-negative factor is monotone. */
  lemma ProductMonotone(a: real, b: real, c: real, d: real)
    requires 0.0 <= a <= b && 0.0 <= c <= d
    ensures a * c <= b * d
  {
    assert b * c - a * c == (b - a) * c;
    assert b * d - b * c == b * (d - c);
  }

  /** Both amounts grow with the balance when the fraction is non-negative. */
  lemma AmountsMonotone(low: real, high: real, percent: real)
    requires low <= high && percent >= 0.0
    ensures RiskAmount(low, percent) <= RiskAmount(high, percent)
    ensures MaxPositionValue(low, percent) <= MaxPositionValue(high, percent)
  {
    assert high * percent - low * percent == (high - low) * percent;
  }

  /** Division by a positive number is monotone. */
  lemma QuotientMonotone(a: real, b: real, d: real)
    requires a <= b && d > 0.0
    ensures a / d <= b / d
  {
    assert b / d - a / d == (b - a) / d;
  }

  /** For a non-negative balance the risk amount grows with the risk fraction. */
  lemma RiskAmountMonotoneInFraction(balance: real, low: real, high: real)
    requires balance >= 0.0 && low <= high
    ensures RiskAmount(balance, low) <= RiskAmount(balance, high)
  {
    assert balance * high - balance * low == balance * (high - low);
  }

  /** The risk quantity grows with the risk amount. */
  lemma RiskMonotone(low: real, high: real, entry: real, stop: real)
    requires entry != stop && low <= high
    ensures RiskQuantity(low, entry, stop) <= RiskQuantity(high, entry, stop)
  {
    QuotientMonotone(low, high, Abs(entry - stop));
    TruncateMonotone(low / Abs(entry - stop), high / Abs(entry - stop));
  }

  /** The cap quantity grows with the maximum position value. */
  lemma CapMonotone(low: real, high: real, entry: real)
    requires entry > 0.0 && low <= high
    ensures CapQuantity(low, entry) <= CapQuantity(high, entry)
  {
    QuotientMonotone(low, high, entry);
    TruncateMonotone(low / entry, high / entry);
  }

  /** For a positive entry the quantity is the smaller of the risk and cap quantities. */
  lemma QuantityIsMinOfBudgetAndCap(quote: QuoteData, balance: real, signal: TrendSignal, config: Config)
    requires signal != Hold && quote.last > 0.0 && config.stopLossPercent != 0.0
    ensures StopLossPrice(signal, quote.last, config.stopLossPercent) != quote.last
    ensures var o := CalculateOrder(quote, balance, signal, config);
      o.quantity == MinInt(RiskQuantity(RiskAmount(balance, config.riskPerTradePercent), quote.last, o.stopLossPrice),
                           CapQuantity(MaxPositionValue(balance, config.maxPositionPercent), quote.last))
  {
    OrderParts(quote, balance, signal, config);
    var stop := StopLossPrice(signal, quote.last, config.stopLossPercent);
    ClampArithmetic(RiskQuantity(RiskAmount(balance, config.riskPerTradePercent), quote.last, stop), quote.last,
                    MaxPositionValue(balance, config.maxPositionPercent));
  }

  /** For a positive entry the quantity never exceeds what the risk amount pays for. */
  lemma QuantityWithinRiskBudget(quote: QuoteData, balance: real, signal: TrendSignal, config: Config)
    requires signal != Hold && quote.last > 0.0 && config.stopLossPercent != 0.0
    ensures StopLossPrice(signal, quote.last, config.stopLossPercent) != quote.last
    ensures var o := CalculateOrder(quote, balance, signal, config);
      o.quantity <= RiskQuantity(RiskAmount(balance, config.riskPerTradePercent), quote.last, o.stopLossPrice)
  {
    OrderParts(quote, balance, signal, config);
    var stop := StopLossPrice(signal, quote.last, config.stopLossPercent);
    ClampArithmetic(RiskQuantity(RiskAmount(balance, config.riskPerTradePercent), quote.last, stop), quote.last,
                    MaxPositionValue(balance, config.maxPositionPercent));
  }

  /**
   * With a positive entry and a non-negative maximum position value the
   * position's value never exceeds it; when the clamp fires the quantity
   * is the cap quantity.
   */
  lemma PositionWithinCap(quote: QuoteData, balance: real, signal: TrendSignal, config: Config)
    requires signal != Hold && quote.last > 0.0 && config.stopLossPercent != 0.0
    requires MaxPositionValue(balance, config.maxPositionPercent) >= 0.0
    ensures StopLossPrice(signal, quote.last, config.stopLossPercent) != quote.last
    ensures var o := CalculateOrder(quote, balance, signal, config);
      o.quantity as real * quote.last <= MaxPositionValue(balance, config.maxPositionPercent)
    ensures var o := CalculateOrder(quote, balance, signal, config);
      var risk := RiskQuantity(RiskAmount(balance, config.riskPerTradePercent), quote.last, o.stopLossPrice);
      risk as real * quote.last > MaxPositionValue(balance, config.maxPositionPercent) ==>
        o.quantity == CapQuantity(MaxPositionValue(balance, config.maxPositionPercent), quote.last)
  {
    OrderParts(quote, balance, signal, config);
    var stop := StopLossPrice(signal, quote.last, config.stopLossPercent);
    ClampArithmetic(RiskQuantity(RiskAmount(balance, config.riskPerTradePercent), quote.last, stop), quote.last,
                    MaxPositionValue(balance, config.maxPositionPercent));
  }

  /** Buy and Sell orders for the same quote, balance and parameters have the same quantity. */
  lemma BuySellSameQuantity(quote: QuoteData, balance: real, config: Config)
    requires SizingDefined(quote.last, config.stopLossPercent)
    ensures CalculateOrder(quote, balance, Buy, config).quantity == CalculateOrder(quote, balance, Sell, config).quantity
  {
    StopDistance(Buy, quote.last, config.stopLossPercent);
    StopDistance(Sell, quote.last, config.stopLossPercent);
  }

  /** With a positive entry and stop-loss fraction the stop is on the losing side of the entry. */
  lemma StopOnLosingSide(quote: QuoteData, balance: real, signal: TrendSignal, config: Config)
    requires signal != Hold && quote.last > 0.0 && config.stopLossPercent > 0.0
    ensures signal == Buy ==> CalculateOrder(quote, balance, signal, config).stopLossPrice < quote.last
    ensures signal == Sell ==> CalculateOrder(quote, balance, signal, config).stopLossPrice > quote.last
  {
    assert quote.last * config.stopLossPercent > 0.0;
    assert quote.last * (1.0 - config.stopLossPercent) == quote.last - quote.last * config.stopLossPercent;
    assert quote.last * (1.0 + config.stopLossPercent) == quote.last + quote.last * config.stopLossPercent;
  }

  /** A non-negative balance and fractions never give a negative quantity, whatever the sign of the entry. */
  lemma QuantityNonNegative(quote: QuoteData, balance: real, signal: TrendSignal, config: Config)
    requires signal != Hold && SizingDefined(quote.last, config.stopLossPercent)
    requires balance >= 0.0 && config.riskPerTradePercent >= 0.0 && config.maxPositionPercent >= 0.0
    ensures CalculateOrder(quote, balance, signal, config).quantity >= 0
  {
    var stop := StopLossPrice(signal, quote.last, config.stopLossPercent);
    ProductMonotone(0.0, balance, 0.0, config.riskPerTradePercent);
    ProductMonotone(0.0, balance, 0.0, config.maxPositionPercent);
    OrderParts(quote, balance, signal, config);
    var risk := RiskQuantity(RiskAmount(balance, config.riskPerTradePercent), quote.last, stop);
    RiskMonotone(0.0, RiskAmount(balance, config.riskPerTradePercent), quote.last, stop);
    assert RiskQuantity(0.0, quote.last, stop) == 0;
    if quote.last > 0.0 {
      QuantityIsMinOfBudgetAndCap(quote, balance, signal, config);
      CapMonotone(0.0, MaxPositionValue(balance, config.maxPositionPercent), quote.last);
      assert CapQuantity(0.0, quote.last) == 0;
    } else {
      // A negative entry makes the risk shares' value non-positive, so the clamp never fires.
      assert risk as real * quote.last <= 0.0;
    }
  }

  /** More balance never buys fewer shares. */
  lemma QuantityMonotoneInBalance(quote: QuoteData, low: real, high: real, signal: TrendSignal, config: Config)
    requires signal != Hold && quote.last > 0.0 && config.stopLossPercent != 0.0
    requires low <= high
    requires config.riskPerTradePercent >= 0.0 && config.maxPositionPercent >= 0.0
    ensures CalculateOrder(quote, low, signal, config).quantity <= CalculateOrder(quote, high, signal, config).quantity
  {
    var stop := StopLossPrice(signal, quote.last, config.stopLossPercent);
    AmountsMonotone(low, high, config.riskPerTradePercent);
    AmountsMonotone(low, high, config.maxPositionPercent);
    QuantityIsMinOfBudgetAndCap(quote, low, signal, config);
    QuantityIsMinOfBudgetAndCap(quote, high, signal, config);
    RiskMonotone(RiskAmount(low, config.riskPerTradePercent), RiskAmount(high, config.riskPerTradePercent), quote.last, stop);
    CapMonotone(MaxPositionValue(low, config.maxPositionPercent), MaxPositionValue(high, config.maxPositionPercent), quote.last);
  }

  /**
   * A larger risk fraction never buys fewer shares, and once the clamp
   * fires, raising the risk fraction leaves the quantity unchanged.
   */
  lemma QuantityMonotoneInRisk(quote: QuoteData, balance: real, signal: TrendSignal, low: Config, high: Config)
    requires signal != Hold && quote.last > 0.0 && low.stopLossPercent != 0.0
    requires high == low.(riskPerTradePercent := high.riskPerTradePercent)
    requires low.riskPerTradePercent <= high.riskPerTradePercent
    requires balance >= 0.0
    ensures CalculateOrder(quote, balance, signal, low).quantity <= CalculateOrder(quote, balance, signal, high).quantity
    ensures var o := CalculateOrder(quote, balance, signal, low);
      RiskQuantity(RiskAmount(balance, low.riskPerTradePercent), quote.last, o.stopLossPrice) as real * quote.last
        > MaxPositionValue(balance, low.maxPositionPercent)
      ==> CalculateOrder(quote, balance, signal, high).quantity == o.quantity
  {
    var stop := StopLossPrice(signal, quote.last, low.stopLossPercent);
    var maxPositionValue := MaxPositionValue(balance, low.maxPositionPercent);
    RiskAmountMonotoneInFraction(balance, low.riskPerTradePercent, high.riskPerTradePercent);
    OrderParts(quote, balance, signal, low);
    OrderParts(quote, balance, signal, high);
    var riskLow := RiskQuantity(RiskAmount(balance, low.riskPerTradePercent), quote.last, stop);
    var riskHigh := RiskQuantity(RiskAmount(balance, high.riskPerTradePercent), quote.last, stop);
    RiskMonotone(RiskAmount(balance, low.riskPerTradePercent), RiskAmount(balance, high.riskPerTradePercent), quote.last, stop);
    ClampArithmetic(riskLow, quote.last, maxPositionValue);
    ClampArithmetic(riskHigh, quote.last, maxPositionValue);
    ClampOnceFired(riskLow, riskHigh, quote.last, maxPositionValue, CapQuantity(maxPositionValue, quote.last));
  }
}

=== FILE: wrappers.dfy ===
/** Failure-carrying datatypes used throughout the model. */
module Wrappers {

  /** A value that may be absent: the source's nullable references and `double?`. */
  datatype Option<+T> = None | Some(value: T)

  /** The result of a computation that the source lets throw an exception. */
  datatype Attempt<+T> = Ok(value: T) | Thrown(error: string)
}
